=== FILE: README.md ===
# Transit measurement service — a Dafny model of its core

The service counts vehicles crossing a line in traffic videos. A user uploads a video through the
API and confirms the upload. A video worker normalises it: it rescales it and caps its frame rate.
A second worker tracks and counts the objects of a few classes crossing the line of each
measurement the user requested. The two workers cooperate through Redis lists, and all state sits
in three tables (videos, measurements, detections) behind a generic record store.

This project models the deterministic logic of that core as pure Dafny functions, a few methods
with loop invariants, and lemmas about them:

- the optimiser's planner (`Planner`) and its four frame loops over an abstract capture
  (`Transcoder`, with Python's `int()` in `PyNum`);
- the queue protocol of the workers over Redis list semantics (`RedisLists`, `Orchestrator`);
- one `process_task` step of each stage, and the fan-out of waiting measurements after an
  optimisation (`Pipeline`);
- the counting engine's bookkeeping: detection filtering, per-class extraction and its partition,
  line endpoints, counters, per-frame failure handling, and the final statistics (`Detections`,
  `Counting`). The older `processor.py` variant is modelled alongside (`Counting.Legacy*`);
- the record store with its truthiness-filtered update (`Records`) and the video service over it
  (`VideoService`);
- the API's password rules (`Passwords`), user registry (`Users`) and the video routes that decide
  what is queued (`VideoRoutes`).

Frames, detections' pixels, the line-crossing counter's internals, hashing and the clock are
abstract values or parameters. Python floats are exact `real`s. Python's `int()` of a float
truncates toward zero (`PyNum.Trunc`). A raised exception is an `Err` of a `Failure` value.

The model follows the source in three places a reader might not expect:

- The queues are named `VIDEO_TODO`, `VIDEO_WIP`, `VIDEO_ERROR` and `MEASUREMENTS_TODO`, `MEASUREMENTS_WIP`,
  `MEASUREMENTS_ERROR`.
- The fan-out picks only measurements whose status is the literal `'REQUESTED'`. A new
  measurement's status defaults to `'CREATED'` (shared/schemas/measurements.py:56).
- No frame is ever dropped by the frame-rate "trim" (`Transcoder.GateNeverRejects`), although the
  output is declared at `MAX_FPS`.

The source snapshot is not self-consistent in a few places, and the model takes the evident
request in each:

- The workers and routes call `update_video` / `update_measurement` on `VideoManager`, which defines
  `user_update_video` / `user_update_measurement`.
- They import `UpdateMeasurementAPI`, which the schema module does not define.
- `UpdateVideoAPI` has no `status` field.
- The workers build their updates from `UpdateVideoInternal` (video-service/src/core/optimizer.py:8,
  37, 79) and `UpdateMeasurementInternal` (video-service/src/core/predictor.py:11, 37, 136), which
  no schema module defines.

In all of these the model applies a status update `{status: ...}` through the store's update.

- The service imports and uses `UpdateVideo` (shared/service/videos.py:3, 14, 64), but
  shared/schemas/videos.py defines only `UpdateVideoAPI` and `UpdateVideoMetadata`. The model
  takes `UpdateVideo` to be shaped like `UpdateVideoAPI`: every field defaults to `None`, so
  `UpdateVideo(is_active=False)` sends `is_active` and nothing truthy. Were it shaped like
  `UpdateVideoMetadata`, the same merge would also write `status='In Progress'`.
  `UpdateMeasurement` is defined (shared/schemas/measurements.py:42-45) with every field
  defaulting to `None`.
- The workers construct `VideoManager('internal')` (video-service/src/core/optimizer.py:17,
  video-service/src/core/predictor.py:23), but `VideoManager.__init__` takes no argument
  (shared/service/videos.py:9). The model ignores the argument.
- shared/database/models.py:10-21 defines only `Video`, keyed by a UUID and without `owner_id`,
  `is_active`, `status` or `duration` columns, while the service imports `Measurement` and
  `Detection` from it (shared/service/videos.py:2). The model stores three tables with integer
  keys and the columns the schemas and the service read and write.
- The schemas are written for pydantic 2 (`ConfigDict`, `model_config`), where a field typed
  `Optional[...]` without a default is required. `DetectionSchema` declares `id` and
  `measurement_id` that way (shared/schemas/measurements.py:10-11), so the record built at
  video-service/src/core/predictor.py:128-132 from a class name, count and frequency alone fails
  validation at the first class that counted something. As written, a prediction that counted
  anything stores no record and ends in the `except` branch, which moves the measurement to
  MEASUREMENTS_ERROR. The model builds and stores each record as evidently intended
  (`Counting.SaveResultStatistics`).

- `VideoSchema` declares no `status` (shared/schemas/videos.py:14-26), yet the measurement route
  reads `video.status` (api-service/src/api/routes/v1/videos.py:73). The model reads the stored
  row's `status` column.
- `VideoSchema` declares no `measurements` either, yet the optimiser's fan-out iterates
  `video.measurements` (video-service/src/orchestrators/optimizer_orchestrator.py:39-40). The
  model takes the stored measurements whose `video_id` is the video's (`VideoService.MeasurementsOf`).
- `VideoManager` has no `get_videos` (shared/service/videos.py:10-92), yet the listing route calls
  it (api-service/src/api/routes/v1/videos.py:28). The model lists through the store's `get_items`.
- The service calls the store with `session=` and `params=` keywords (shared/service/videos.py:28,
  58, 82) that the store's signatures do not take (shared/database/crud.py:18, 25, 44). The model
  drops the session and passes the row or update itself.

## Model

| member | source | states |
|---|---|---|
| Planner.GetProcessorAndArgs | video-service/src/core/optimizer.py:90-140 | exactly one of the four processors, chosen by (short side > MAX_BASE_DIMENSION, fps > MAX_FPS); target dimensions are planned iff the video is bigger and a frame-rate factor iff its fps is higher; that factor lies in [0, 1) with factor·fps = MAX_FPS and the new fps is MAX_FPS; total frames are always kept; copy keeps the info; a rescaled short side equals the limit; the fps-only branch keeps the dimensions |
| Planner.StoredRatioOfPlan | video-service/src/core/optimizer.py:78-80 | the stored `optimized_fps_ratio` (`kwargs.get('fps_factor', 1)`) is 1 exactly when no frame-rate factor is planned, and below 1 otherwise |
| Planner.ShortSideIsLimit | video-service/src/core/optimizer.py:142-146 | each target side is the floor of side·M/short side; the short side becomes exactly M and neither side grows |
| Planner.FullHdExample | video-service/src/core/optimizer.py:97-110 | a 1920×1080, 30 fps video with limits 360 px / 15 fps is trimmed and rescaled to 640×360 at factor 0.5 |
| Planner.ValidateVideoPath | video-service/src/core/optimizer.py:47-56 | succeeds (and then returns True) exactly for a string with the S3 prefix; a non-string raises TypeError, any other string ValueError; it never returns False |
| Planner.GetVideoMetadata | video-service/src/core/optimizer.py:33-45 | duration is ⌊total_frames / fps⌋; a failed probe or zero fps becomes RuntimeError('Video metadata could not be extracted'); the status tag is carried through |
| PyNum.Trunc | video-service/src/core/optimizer.py:171 | `int()` of a float: the integer between zero and the value that is less than one away from it |
| Transcoder.CopyVideo | video-service/src/core/optimizer.py:148-157 | exactly the frames before the first failed read are written, in order and unchanged |
| Transcoder.RescaleVideo | video-service/src/core/optimizer.py:178-188 | exactly the frames before the first failed read are written, in order, each resized to the target |
| Transcoder.GateNeverRejects | video-service/src/core/optimizer.py:171-172 | for a factor in (0, 1], `int(index_in / factor)` is at least `index_in`, so the gate never rejects a grabbed frame |
| Transcoder.TrimVideoFps | video-service/src/core/optimizer.py:159-212 | an unopened capture fails its assertion; a zero factor raises ZeroDivisionError at the first grabbed frame; `-1 ≤ index_out ≤ index_in` and one frame is written per increment of `index_out`; written frames come from strictly increasing readable positions; for a factor in (0, 1] every frame before the first failed grab or retrieve is written; `trim_video_fps_and_rescale` is the same loop with every written frame resized to the target |
| Transcoder.RunPlannedProcessor | video-service/src/core/optimizer.py:69-70 | with a positive MAX_FPS and an opened capture, whichever processor is planned writes exactly the readable prefix of the source in order, so no frame rate is ever reduced; an unopened capture writes nothing, and fails iff a trimming processor was planned |
| RedisLists.LPush | video-service/src/orchestrators/optimizer_orchestrator.py:45 | LPUSH puts the id at the head of its list and leaves every other list alone |
| RedisLists.LPop | video-service/src/orchestrators/generic_orchestrator.py:23 | LPOP removes and returns the head, and does nothing to an empty list |
| RedisLists.RPopLPush | video-service/src/orchestrators/generic_orchestrator.py:18 | RPOPLPUSH moves the tail of the source to the head of the destination; an empty source returns nothing and changes nothing |
| RedisLists.DrainPushAll | video-service/src/orchestrators/generic_orchestrator.py:18 | LPUSHing ids onto a list and then popping its tail hands out the older entries first and then the pushed ids in push order |
| Orchestrator.TaskKind | video-service/src/orchestrators/generic_orchestrator.py:27-31 | only 'video' and 'measurement' select an updater, 'video' the video one |
| Orchestrator.GetNextTask | video-service/src/orchestrators/generic_orchestrator.py:17-20 | the tail of the origin list moves to the head of WIP and is returned; an empty origin returns nothing and changes nothing; the error list is untouched |
| Orchestrator.RemoveCompleteTask | video-service/src/orchestrators/generic_orchestrator.py:22-23 | exactly the head of WIP is removed and every other list is unchanged |
| Orchestrator.SendTaskToError | video-service/src/orchestrators/generic_orchestrator.py:25-34 | an empty WIP fails before anything moves; otherwise the tail of WIP moves to the head of the error list, and a status update follows iff the task type is known |
| Orchestrator.ClaimConserves | video-service/src/orchestrators/generic_orchestrator.py:17-20 | a claim keeps the multiset of ids across origin, WIP and error |
| Orchestrator.EscalateConserves | video-service/src/orchestrators/generic_orchestrator.py:25-26 | the queue move of an escalation keeps the multiset of ids across the three lists |
| Orchestrator.SoleClaimIsActedOn | video-service/src/orchestrators/generic_orchestrator.py:17-26 | when WIP was empty, acknowledging removes and escalating moves exactly the id just claimed |
| Orchestrator.OlderWipIsEscalated | video-service/src/orchestrators/generic_orchestrator.py:22-26 | when WIP already held ids, acknowledging removes the new claim but escalation moves the oldest WIP id instead of it |
| Orchestrator.ClaimsDrainOrigin | video-service/src/orchestrators/generic_orchestrator.py:18 | successive claims hand out the origin list from its tail |
| Orchestrator.ClaimsInPushOrder | video-service/src/orchestrators/generic_orchestrator.py:18 | with LPUSH producers onto an empty origin, ids are claimed in the order they were pushed (FIFO) |
| Pipeline.ApplyEscalation | video-service/src/orchestrators/generic_orchestrator.py:26-34 | an empty WIP makes `int(None)` raise; an unknown task type fails after the queue move; otherwise the moved id's video or measurement is set to 'ERROR' |
| Pipeline.RequestedIds | video-service/src/orchestrators/optimizer_orchestrator.py:40-41 | the ids picked are exactly those of measurements whose status is 'REQUESTED' |
| Pipeline.FanOut | video-service/src/orchestrators/optimizer_orchestrator.py:39-45 | the picked ids are LPUSHed onto MEASUREMENTS_TODO in list order; no other list and no other table changes |
| Pipeline.FanOutStatuses | video-service/src/orchestrators/optimizer_orchestrator.py:41-45 | with unique keys, exactly the picked measurements become 'QUEUED' and every other row stays as it was |
| Pipeline.FanOutNothingRequested | video-service/src/orchestrators/optimizer_orchestrator.py:39-41 | with no 'REQUESTED' measurement (or none at all) the fan-out changes nothing |
| Pipeline.NothingRequestedAfterFanOut | video-service/src/orchestrators/optimizer_orchestrator.py:40-43 | after the fan-out no measurement of the video is still 'REQUESTED' |
| Pipeline.SecondFanOutIsNoOp | video-service/src/orchestrators/optimizer_orchestrator.py:37-45 | re-running the fan-out for the same video changes nothing, so a redelivered task queues nothing twice |
| Pipeline.EnqueueMeasurementTasks | video-service/src/orchestrators/optimizer_orchestrator.py:37-45 | a missing video raises when its measurements are read; otherwise the prediction queue gains exactly the video's 'REQUESTED' measurements |
| Pipeline.OptimizerProcessTask | video-service/src/orchestrators/optimizer_orchestrator.py:21-35 | a falsy claim (nothing, or id 0) sleeps and returns with no processing, acknowledgement or escalation; an acknowledgement only follows a completed optimisation of the claimed id and never touches the error list |
| Pipeline.PredictorProcessTask | video-service/src/orchestrators/predictor_orchestrator.py:18-27 | a falsy claim returns at once without sleeping; the task is acknowledged iff a truthy id was claimed and the prediction completed, and then the prediction's database stands |
| Pipeline.ZeroIdIsStranded | video-service/src/orchestrators/optimizer_orchestrator.py:22-26 | a queued id 0 is moved to WIP and then treated as "no task": it stays in WIP and the database is untouched |
| Pipeline.FailedOptimisationEscalatesVideo | video-service/src/orchestrators/optimizer_orchestrator.py:27-35 | when VIDEO_WIP was empty before the claim and the claimed id is non-zero, a failed optimisation moves the claimed id to VIDEO_ERROR, marks the video 'ERROR' and queues no measurement |
| Pipeline.SuccessfulOptimisationFansOut | video-service/src/orchestrators/optimizer_orchestrator.py:30-32 | a completed optimisation is acknowledged and then fans out the video's 'REQUESTED' measurements |
| Pipeline.FanOutFailureAfterAckCrashes | video-service/src/orchestrators/optimizer_orchestrator.py:31-35 | the acknowledgement comes before the fan-out, so a fan-out failure finds WIP empty and the escalation itself raises |
| Pipeline.FailedPredictionEscalatesMeasurement | video-service/src/orchestrators/predictor_orchestrator.py:21-27 | when MEASUREMENTS_WIP was empty before the claim and the claimed id is non-zero, a failed prediction moves the claimed id to MEASUREMENTS_ERROR and marks the measurement 'ERROR'; it is never acknowledged |
| Records.Merge | shared/database/crud.py:51-53 | a column is overwritten exactly when the update carries a truthy value for it; None, False, 0, 0.0 and "" never overwrite, and nothing else changes |
| Records.MergeIdempotent | shared/database/crud.py:51-53 | applying the same update twice gives the record that applying it once gives |
| Records.FalsyUpdateIsNoOp | shared/database/crud.py:51-53 | an update of only falsy values changes nothing |
| Records.CreateItem | shared/database/crud.py:18-23 | the table grows by one row, every earlier row keeps its place and the new row comes last |
| Records.CreateThenGet | shared/database/crud.py:18-33 | after an insert, a key already stored still finds its old row, a missing key finds the new row iff it carries that key, and a fresh key keeps the keys unique |
| Records.GetItem | shared/database/crud.py:25-33 | a stored row with the key, and None exactly when no row has it |
| Records.GetItemIsFirst | shared/database/crud.py:25-33 | with repeated keys, the row returned is the first one with the key |
| Records.GetItemByField | shared/database/crud.py:35-42 | the first row matching every condition, and None exactly when none matches |
| Records.GetItems | shared/database/crud.py:66-71 | every row in store order, but None instead of an empty list |
| Records.UpdateItem | shared/database/crud.py:44-55 | a missing key returns None and changes nothing; otherwise only the first row with the key is merged with the update |
| Records.DeleteItem | shared/database/crud.py:57-64 | a missing key is a no-op; otherwise the first row with the key is removed and the others keep their order |
| Records.DeleteUnique | shared/database/crud.py:57-64 | with unique keys, a row survives the deletion iff it was stored and has another key, and keys stay unique |
| Records.UpdateUnique | shared/database/crud.py:44-55 | with unique keys, an update rewrites just the row with the key and keeps the keys unique |
| VideoService.CreateVideo | shared/service/videos.py:25-30 | the row carries the key the database assigned, `owner_id` is the requesting user and every other field is the one sent; it is appended to the videos and nothing else changes |
| VideoService.CreatedVideoIsFound | shared/service/videos.py:25-30 | a video created under a fresh key is then found under that key, and every other key finds what it found before |
| VideoService.NewMeasurementFields | shared/service/videos.py:34-41 | `video_id` is the argument; if any coordinate is falsy all four become 0.5, otherwise all four are kept; every other field is kept |
| VideoService.CreateMeasurement | shared/service/videos.py:32-45 | the row carries the assigned key and `video_id`; the four coordinates are kept when all are truthy and are all 0.5 otherwise; every other field is the one sent; it is appended to the measurements and nothing else changes |
| VideoService.CreateDetection | shared/service/videos.py:47-53 | the detection is stored under the measurement and keeps every other field |
| VideoService.UpdateVideo | shared/service/videos.py:55-61 | the store's update on the video table: a missing video returns None; the updated row is the one later found under the key; a missing video changes nothing; every other video row keeps its place and contents, and the other tables are untouched |
| VideoService.UpdateMeasurement | shared/service/videos.py:67-74 | the store's update on the measurement table, with the same guarantees: None and no change for a missing measurement, every other measurement row kept in place |
| VideoService.RemoveVideo | shared/service/videos.py:63-65 | as written, with the undefined `UpdateVideo` taken to be shaped like `UpdateVideoAPI` (only `is_active=False` given, every other field `None`): the merge skips the falsy value, so nothing changes |
| VideoService.RemoveMeasurement | shared/service/videos.py:76-78 | as written: `UpdateMeasurement(is_active=False)` leaves every other field `None` (shared/schemas/measurements.py:42-45), the merge skips the falsy value, and nothing changes |
| VideoService.UpdateOfUnchangedRow | shared/database/crud.py:44-55 | an update of only falsy values returns the stored row and leaves the table as it was |
| VideoService.MergeGiven | shared/database/crud.py:51-53 | the intended partial update: every value given (not None) is written, False and 0 included |
| VideoService.MergesAgreeOnTruthyUpdates | shared/database/crud.py:51-53 | for updates of only None or truthy values, such as every status update of the workers, the written merge and the intended one agree |
| VideoService.RemoveVideoIntended | shared/service/videos.py:63-65 | the intended deactivation: a stored video is found inactive afterwards, a missing one gives None, and the other tables are untouched |
| VideoService.RemoveVideoKeepsActive | shared/service/videos.py:63-65 | an active video stays active after `remove_video`, while the intended update deactivates it |
| VideoService.MeasurementsOf | video-service/src/orchestrators/optimizer_orchestrator.py:38-40 | `video.measurements` holds exactly the stored measurements whose `video_id` is the video's |
| Detections.Select | video-service/src/core/predictor.py:176-182 | boolean-mask indexing keeps the chosen rows of every parallel field in order; an absent mask or tracker-id field stays absent |
| Detections.FilterDetections | video-service/src/core/predictor.py:150-152 | exactly the detections whose class is allowed and whose confidence is strictly above the threshold are kept, in order |
| Detections.ProcessFrameDetections | video-service/src/core/predictor.py:145-153 | the tracker ids replace the tracker-id column when the tracker gave them, and the result holds exactly the detections that pass the class and confidence filter, in order |
| Detections.ExtractClassDetections | video-service/src/core/predictor.py:173-183 | exactly the detections of the class are kept, in order, across all parallel fields; absent fields stay absent; the older processor's copy (video-service/src/core/processor.py:130-141) is the same function |
| Detections.Dedup | video-service/src/core/predictor.py:45-48 | the class ids of the counter dict: every allowed id, no other, and none twice |
| Detections.FilteredPartition | video-service/src/core/predictor.py:166-170 | the per-class extracts of the filtered detections, over the distinct allowed ids, are a partition of them: every detection falls in exactly one extract |
| Detections.ClassPartition | video-service/src/core/predictor.py:166-170 | over distinct class ids that cover every row, the class extracts together hold each row exactly once |
| Counting.LinePoints | video-service/src/core/predictor.py:68-74 | every endpoint coordinate given in [0, 1] is scaled to a point inside the frame, between 0 and the width or height |
| Counting.ScaleInSide | video-service/src/core/predictor.py:69-72 | for a coordinate in [0, 1] the scaled value is the floor of size·c and lies in [0, size] |
| Counting.DefaultLineIsAPoint | video-service/src/core/predictor.py:68-74 | the default line (all four coordinates 0.5) has equal endpoints at the frame centre |
| Counting.NewCounter | video-service/src/core/predictor.py:60-66 | a fresh counter sits on the measurement's line with both counts at zero |
| Counting.InstantiateAnnotators | video-service/src/core/predictor.py:41-48 | one global counter and one counter per distinct allowed class id, all fresh and on the same line |
| Counting.Step | video-service/src/core/predictor.py:101-118 | one frame changes only counts, never the classes or the lines |
| Counting.BrokenFrameCountsNothing | video-service/src/core/predictor.py:101-118 | a frame whose processing raises before any counter is triggered changes no count and is not written |
| Counting.GeneratePredictedVideo | video-service/src/core/predictor.py:96-118 | exactly the frames that raise nothing are written, in order; each counter ends at its start plus the crossings of the triggers that ran in every frame |
| Counting.FrameInputs | video-service/src/core/predictor.py:103-113 | the global counter sees the filtered detections; the class counters see their class extracts, which together are exactly the filtered detections |
| Counting.Counted | video-service/src/core/predictor.py:122-127 | no class with a zero in+out tally gets a record |
| Counting.CountedMembers | video-service/src/core/predictor.py:121-127 | a class gets a record exactly when its counter's in+out tally is positive, and the record carries that tally |
| Counting.CountedSum | video-service/src/core/predictor.py:121-124 | skipping zero-count classes does not change the sum of the counts |
| Counting.SaveResultStatistics | video-service/src/core/predictor.py:120-143 | with each record built as evidently intended (the source's `DetectionSchema` requires an `id` it is not given): a zero duration raises before any record, even for zero counts; one record per counted class in order; the final update carries 'PREDICTED', the output key, the sum of the class counts (not the global counter) and that sum over the duration; a class without a model name raises after the earlier records |
| Counting.SavedCountIsSumOfRecords | video-service/src/core/predictor.py:121-139 | the saved `detections_count` equals the sum of the stored records' counts |
| Counting.LegacyLinePoints | video-service/src/core/processor.py:167-181 | 'vertical' is the middle column top to bottom; 'horizontal' runs from (w, 100) to (0, 100) whatever the height; any other orientation gives nothing |
| Counting.LegacyLineCounter | video-service/src/core/processor.py:153-165 | whatever orientation is asked for, the counter starts at zero on the horizontal line from (width, 100) to (0, 100) |
| Counting.LegacyCounterIgnoresOrientation | video-service/src/core/processor.py:153-160 | the orientation argument and the height make no difference to the counter |
| Counting.LegacyAnnotators | video-service/src/core/processor.py:36-45 | one counter for each of the classes 1, 2, 3, 5, 7, all on the horizontal line |
| Counting.LegacyFrameInputs | video-service/src/core/processor.py:90-127 | the global counter sees every detection, unfiltered; each class counter sees its class extract |
| Counting.LegacyGlobalCountsOtherClasses | video-service/src/core/processor.py:97-114 | a detection of a class outside 1, 2, 3, 5, 7 reaches the global counter but no class counter |
| Passwords.Missing | api-service/src/api/service/auth.py:26-40 | each class is reported missing iff the password has no character of it, in the order lowercase, uppercase, special, number |
| Passwords.EndWithStop | api-service/src/api/service/auth.py:44 | a final comma becomes a full stop and nothing else changes |
| Passwords.TestPasswordFormat | api-service/src/api/service/auth.py:16-47 | under 8 characters raises 400 with the length message before any class check; otherwise accepted iff it has a lowercase letter, an uppercase letter, a non-word character and a digit; otherwise 400 with the class message |
| Passwords.MessageShape | api-service/src/api/service/auth.py:42-47 | every class message starts with the fixed head, lists the missing classes' phrases in order and ends with a full stop |
| Passwords.UnderscoreIsNotSpecial | api-service/src/api/service/auth.py:34-36 | 'Passw0rd_' is refused for lacking a special character: the underscore is a word character |
| Passwords.OnlySpaces | api-service/src/api/service/auth.py:26-44 | eight spaces count as special but are refused for lacking a lowercase letter, an uppercase letter and a number, listed in that order |
| Passwords.GetPasswordHash | api-service/src/api/service/auth.py:49-51 | a password is hashed iff it passes the rules; otherwise the 400 propagates and nothing is hashed |
| Users.AuthenticateUser | api-service/src/api/service/users.py:18-24 | a user returned is stored, has the username and verifies the password against its stored hash; an unknown username gives nothing |
| Users.AuthenticateUnique | api-service/src/api/service/users.py:18-24 | with unique usernames, authentication succeeds iff a stored user has that name and verifies the password |
| Users.CreateUser | api-service/src/api/service/users.py:38-48 | an existing username is refused with 400 before any hashing or insert; a password failing the rules is refused with its 400; otherwise exactly one row is added, holding the hash and not the password, and usernames stay unique |
| Users.ModifyUser | api-service/src/api/service/users.py:50-59 | an unknown id is refused with 404; a supplied password must pass the rules and is stored hashed, otherwise the stored hash stays; the username never changes and stays unique |
| Users.SentParams | api-service/src/api/service/users.py:55-56 | a truthy password is replaced by its hash after validation; otherwise the parameters go unchanged |
| Users.DeactivateUserChangesNothing | api-service/src/api/service/users.py:50-59 | a modification of only `is_active=False` leaves the users as they were |
| Users.CreateUserToken | api-service/src/api/service/users.py:26-36 | a failed authentication is refused with 401; otherwise a token is always issued, for the authenticated user's id, after `last_active` is set to the login time; usernames stay unique |
| Users.LoginIssuesToken | api-service/src/api/service/users.py:18-36 | with unique usernames, a stored user whose hash verifies the password always gets a token carrying that user's id |
| VideoRoutes.ListVideos | api-service/src/api/routes/v1/videos.py:25-30 | exactly the requesting user's videos, each no more often than stored; an empty store makes the filter raise TypeError |
| VideoRoutes.OwnedByAppend | api-service/src/api/routes/v1/videos.py:29 | the owner filter of a concatenation is the concatenation of the filters |
| VideoRoutes.CreatedVideoIsListed | api-service/src/api/routes/v1/videos.py:25-30 | after a video is created for a user, that user's listing is the earlier listing followed by the new video |
| VideoRoutes.ListingsAreDisjoint | api-service/src/api/routes/v1/videos.py:28-30 | no video is listed for two different users |
| VideoRoutes.OwnerSeesEveryVideo | api-service/src/api/routes/v1/videos.py:28-30 | every stored video is listed for its owner |
| VideoRoutes.ConfirmUpload | api-service/src/api/routes/v1/videos.py:49-56 | the id goes to the head of VIDEO_TODO, even for a missing video, and an existing video's status becomes 'QUEUED'; a missing video leaves the tables unchanged, every other video row keeps its place and contents, and no other list changes |
| VideoRoutes.ConfirmedVideosAreClaimedInOrder | api-service/src/api/routes/v1/videos.py:49-56 | with nothing waiting, the optimiser claims the confirmed videos in confirmation order |
| VideoRoutes.CreateMeasurementRoute | api-service/src/api/routes/v1/videos.py:66-80 | a missing video raises AttributeError; the measurement is stored as 'QUEUED' and its new id pushed after creation iff the video is 'OPTIMIZED'; otherwise its status is untouched and nothing is pushed |
| VideoRoutes.CreateMeasurementKeepsQueueMarked | api-service/src/api/routes/v1/videos.py:72-79 | every id waiting for prediction names a stored 'QUEUED' measurement, and creating a measurement keeps it so |
| VideoRoutes.EarlyMeasurementIsNeverQueued | api-service/src/api/routes/v1/videos.py:72-80 | a default ('CREATED') measurement of a video not yet optimised is not queued, and the later fan-out pushes the same ids it would without it |
| VideoRoutes.MeasurementOfVideo | api-service/src/api/routes/v1/videos.py:83-92 | a missing measurement raises AttributeError; one of another video is refused with 404 'Measurement not found for video …'; otherwise it is returned |
| VideoRoutes.PatchMeasurementRoute | api-service/src/api/routes/v1/videos.py:95-106 | the same guard with no change on refusal; otherwise the measurement is merged with the update and the other tables are untouched |
| VideoRoutes.PatchThenGet | api-service/src/api/routes/v1/videos.py:95-106 | a patch that does not move the measurement to another video leaves it readable through the same guard |
| VideoRoutes.DeleteMeasurementRoute | api-service/src/api/routes/v1/videos.py:109-118 | the same guard; a measurement of the video comes back unchanged and nothing is deleted or deactivated |

## Left out

- Frame and file I/O: the OpenCV capture and resize, the video sink, the ffmpeg call, the file-system checks and removals, and S3. Frames are abstract pixels over grab and retrieve outcomes. The later `isfile` check is not modelled.
- `processor.py`'s `_validate_video_path`: it asks the file system whether the path exists, which is I/O.
- The line-crossing counter's internals (`LineZone.trigger`) and the YOLO tracker. They are foreign library code, so each frame supplies opaque in/out increments and detections.
- Floating point. Scale factors, frame-rate factors, frequencies and line-coordinate products are exact reals. Python's float rounding in `get_target_dimensions` can differ from the exact floor by one pixel.
- `\w` and `\d` of Python's regular expressions, and `str.upper()`, act on Unicode letters and digits. The model uses their ASCII versions (`Counting.Upper` maps only `a`-`z`); the model class names are ASCII.
- Bcrypt hashing and verification, JWT encoding, and the token's expiry. Hash and verify are parameters, and a token is represented by the user id it carries.
- `Users.ModifyUser`: the stored password is stated to be the hash only when the hash is non-empty. An empty hash is falsy and would not be written, and bcrypt never returns one.
- Redis and Postgres sessions, the worker loop, `time.sleep` and concurrency. One `process_task` step is modelled with the processing call's outcome as a parameter.
- The race between reading a video's measurements and a concurrent measurement creation. It needs interleavings, which a single step does not have.
- The pure delegations: the create, get, patch and delete video routes, `get_user`, the users and auth routes, and the dependency that decodes the token. The video routes check no ownership; the model states nothing more about them than the service functions they call.
- The measurement routes' ownership check compares the measurement with the path video only. Nothing ties the video to the requesting user, and the model says so by taking no user.
- Primary keys are `Row.id`. An `id` column inside an update's fields does not re-key a row in the model.
- Counting.SaveResultStatistics: stores every counted class's record; the `DetectionSchema` validation error that, under pydantic 2, makes the source's first such record raise (its `id` and `measurement_id` are required) is not modelled.
- Pydantic validation and response-model checks: extra fields dropped from schemas, defaults evaluated once at import, and `None` responses failing the response model.
- Logging and the per-frame labels and annotations drawn on frames.

## Findings

| source | as written | input that shows it | evidently intended | confidence | as-written member | corrected member |
|---|---|---|---|---|---|---|
| shared/service/videos.py:63-65 | `remove_video` sends `is_active=False` through `update_item`, which writes only truthy values (shared/database/crud.py:51-53), so the video stays active. This takes the undefined `UpdateVideo` to be shaped like `UpdateVideoAPI` (`is_active` given, every other field `None`). `remove_measurement` (76-78), whose `UpdateMeasurement` is defined with every field `None` by default (shared/schemas/measurements.py:42-45), shows the same without that assumption, and so does a user deactivation through `modify_user`. | any stored video with `is_active = True`, deleted through `DELETE /api/v1/videos/{id}/` | the video row gets `is_active = False` | high, not executed | VideoService.RemoveVideoKeepsActive | VideoService.RemoveVideoIntended |

=== FILE: counting.dfy ===
/** The counting bookkeeping of the predictor: the counting line in pixels, one global counter
    plus one counter per allowed class, the per-frame loop that skips frames whose processing
    raises, and the statistics saved at the end. The line-crossing counter itself is foreign
    code: each trigger is an opaque number of crossings in each direction. The older
    `VideoProcessor` variant is modelled alongside. */
module Counting {
  import opened Wrappers
  import opened PyNum
  import opened Detections

  datatype Point = Point(x: int, y: int)

  /** A counting line from `start` to `end`. */
  datatype Line = Line(start: Point, end: Point)

  /** A line-crossing counter on a line, with its two tallies. */
  datatype Counter = Counter(line: Line, inCount: nat, outCount: nat)

  /** The crossings one trigger adds to a counter. */
  datatype Crossing = Crossing(inward: nat, outward: nat)

  /** The global counter and the class counters in the key order of `class_annotators`. */
  datatype Annotators = Annotators(global: Counter, classes: seq<(int, Counter)>)

  /** The pixel of a relative coordinate along a side of `size` pixels: `int(size * c)`. */
  function Scale(size: nat, c: real): int {
    Trunc(size as real * c)
  }

  /** `_get_line_points`: the measurement's relative line scaled to the video's size. */
  function LinePoints(width: nat, height: nat, x1: real, y1: real, x2: real, y2: real): (l: Line)
    ensures 0.0 <= x1 <= 1.0 ==> 0 <= l.start.x <= width
    ensures 0.0 <= y1 <= 1.0 ==> 0 <= l.start.y <= height
    ensures 0.0 <= x2 <= 1.0 ==> 0 <= l.end.x <= width
    ensures 0.0 <= y2 <= 1.0 ==> 0 <= l.end.y <= height
  {
    ScaleInSide(width, x1);
    ScaleInSide(height, y1);
    ScaleInSide(width, x2);
    ScaleInSide(height, y2);
    Line(Point(Scale(width, x1), Scale(height, y1)), Point(Scale(width, x2), Scale(height, y2)))
  }

  /** A coordinate in [0, 1] lands on the side, within one pixel below the exact product. */
  lemma ScaleInSide(size: nat, c: real)
    ensures 0.0 <= c <= 1.0 ==>
              && 0 <= Scale(size, c) <= size
              && Scale(size, c) as real <= size as real * c < Scale(size, c) as real + 1.0
  {
    if 0.0 <= c <= 1.0 {
      var s := size as real;
      assert s * c >= 0.0;
      assert s - s * c == s * (1.0 - c);
      assert s * (1.0 - c) >= 0.0;
    }
  }

  /** The line a new measurement gets when its coordinates are missing (all four 0.5) is a
      single point in the middle of the frame: start and end coincide. */
  lemma DefaultLineIsAPoint(width: nat, height: nat)
    ensures var l := LinePoints(width, height, 0.5, 0.5, 0.5, 0.5);
            && l.start == l.end
            && 2 * l.start.x <= width < 2 * l.start.x + 2
            && 2 * l.start.y <= height < 2 * l.start.y + 2
  {
    ScaleInSide(width, 0.5);
    ScaleInSide(height, 0.5);
  }

  /** A fresh counter on a line. */
  function NewCounter(l: Line): (c: Counter)
    ensures c.line == l && c.inCount == 0 && c.outCount == 0
  {
    Counter(l, 0, 0)
  }

  /** `_instantiate_annotators`: the global counter and one counter per distinct allowed class
      id (the keys of a dict comprehension), every one on the same line and at zero. */
  function InstantiateAnnotators(l: Line, allowed: seq<int>): (a: Annotators)
    ensures a.global == NewCounter(l)
    ensures |a.classes| == |Dedup(allowed)|
    ensures forall k :: 0 <= k < |a.classes| ==> a.classes[k] == (Dedup(allowed)[k], NewCounter(l))
    ensures forall c :: c in allowed <==> exists k :: 0 <= k < |a.classes| && a.classes[k].0 == c
  {
    var ids := Dedup(allowed);
    var a := Annotators(NewCounter(l), seq(|ids|, k requires 0 <= k < |ids| => (ids[k], NewCounter(l))));
    assert forall c :: c in ids ==> exists k :: 0 <= k < |a.classes| && a.classes[k].0 == c by {
      forall c | c in ids
        ensures exists k :: 0 <= k < |a.classes| && a.classes[k].0 == c
      {
        var k :| 0 <= k < |ids| && ids[k] == c;
        assert a.classes[k].0 == c;
      }
    }
    a
  }

  /** What one result of the tracker does inside the `try` block of the frame loop: the crossings
      each trigger would add (class counters in key order, then the global counter), and, when
      the block raises, how many triggers completed before it did. */
  datatype FrameStep<F> = FrameStep(frame: F, crossings: seq<Crossing>, raisesAfter: Option<nat>)

  /** The step's shape matches `n` class counters plus the global one. */
  predicate Shaped<F>(st: FrameStep<F>, n: nat) {
    |st.crossings| == n + 1
  }

  /** Trigger number `k` of the step ran. */
  predicate Ran<F>(st: FrameStep<F>, k: nat) {
    st.raisesAfter.None? || k < st.raisesAfter.value
  }

  function Add(c: Counter, x: Crossing): Counter {
    c.(inCount := c.inCount + x.inward, outCount := c.outCount + x.outward)
  }

  function Plus(x: Crossing, y: Crossing): Crossing {
    Crossing(x.inward + y.inward, x.outward + y.outward)
  }

  /** The crossings trigger number `k` added over the first `i` steps. */
  function Gained<F>(steps: seq<FrameStep<F>>, i: nat, k: nat): (g: Crossing)
    requires i <= |steps|
    requires forall j :: 0 <= j < |steps| ==> k < |steps[j].crossings|
  {
    if i == 0 then Crossing(0, 0)
    else
      var last := if Ran(steps[i - 1], k) then steps[i - 1].crossings[k] else Crossing(0, 0);
      Plus(Gained(steps, i - 1, k), last)
  }

  /** The frames handed to the sink: exactly those whose block did not raise, in order. */
  function Written<F>(steps: seq<FrameStep<F>>): seq<F> {
    if steps == [] then []
    else
      var n := |steps| - 1;
      Written(steps[..n]) + (if steps[n].raisesAfter.None? then [steps[n].frame] else [])
  }

  /** One pass of the frame loop body: the class counters in key order, then the global one,
      each only if the block had not raised before it. */
  function Step<F>(a: Annotators, st: FrameStep<F>): (b: Annotators)
    requires Shaped(st, |a.classes|)
    ensures |b.classes| == |a.classes|
    ensures forall k :: 0 <= k < |a.classes| ==>
              b.classes[k].0 == a.classes[k].0 && b.classes[k].1.line == a.classes[k].1.line
    ensures b.global.line == a.global.line
  {
    var n := |a.classes|;
    Annotators(
      if Ran(st, n) then Add(a.global, st.crossings[n]) else a.global,
      seq(n, k requires 0 <= k < n =>
        (a.classes[k].0, if Ran(st, k) then Add(a.classes[k].1, st.crossings[k]) else a.classes[k].1)))
  }

  /** A frame whose processing raises before the first trigger leaves every counter as it was. */
  lemma BrokenFrameCountsNothing<F>(a: Annotators, st: FrameStep<F>)
    requires Shaped(st, |a.classes|) && st.raisesAfter == Some(0)
    ensures Step(a, st) == a
  {
  }

  /** `generate_predicted_video` after tracking: every frame whose block completes is written,
      a frame whose block raises is skipped and the loop goes on, and each counter ends at its
      start plus the crossings of the triggers that ran. */
  method GeneratePredictedVideo<F>(a: Annotators, steps: seq<FrameStep<F>>)
    returns (written: seq<F>, b: Annotators)
    requires forall i :: 0 <= i < |steps| ==> |steps[i].crossings| == |a.classes| + 1
    ensures written == Written(steps)
    ensures |b.classes| == |a.classes|
    ensures forall k :: 0 <= k < |a.classes| ==>
              b.classes[k] == (a.classes[k].0, Add(a.classes[k].1, Gained(steps, |steps|, k)))
    ensures b.global == Add(a.global, Gained(steps, |steps|, |a.classes|))
  {
    written := [];
    b := a;
    var n := |a.classes|;
    var i := 0;
    while i < |steps|
      invariant 0 <= i <= |steps|
      invariant written == Written(steps[..i])
      invariant |b.classes| == n
      invariant forall k :: 0 <= k < n ==>
                  b.classes[k] == (a.classes[k].0, Add(a.classes[k].1, Gained(steps, i, k)))
      invariant b.global == Add(a.global, Gained(steps, i, n))
    {
      var st := steps[i];
      WrittenLast(steps, i);
      StepTallies(a, b, steps, i);
      b := Step(b, st);
      if st.raisesAfter.None? {
        written := written + [st.frame];
      }
      i := i + 1;
    }
    assert steps[..|steps|] == steps;
  }

  /** The frames written over the first `i + 1` steps: those of the first `i`, then step `i`'s
      frame if its block did not raise. */
  lemma WrittenLast<F>(steps: seq<FrameStep<F>>, i: nat)
    requires i < |steps|
    ensures Written(steps[..i + 1]) ==
            Written(steps[..i]) + (if steps[i].raisesAfter.None? then [steps[i].frame] else [])
  {
    assert steps[..i + 1][..i] == steps[..i];
  }

  /** One pass of the loop body adds the crossings of step `i` to the tallies of the steps before. */
  lemma StepTallies<F>(a: Annotators, b: Annotators, steps: seq<FrameStep<F>>, i: nat)
    requires i < |steps|
    requires forall j :: 0 <= j < |steps| ==> |steps[j].crossings| == |a.classes| + 1
    requires |b.classes| == |a.classes|
    requires forall k :: 0 <= k < |a.classes| ==>
               b.classes[k] == (a.classes[k].0, Add(a.classes[k].1, Gained(steps, i, k)))
    requires b.global == Add(a.global, Gained(steps, i, |a.classes|))
    ensures var b' := Step(b, steps[i]);
            && (forall k :: 0 <= k < |a.classes| ==>
                  b'.classes[k] == (a.classes[k].0, Add(a.classes[k].1, Gained(steps, i + 1, k))))
            && b'.global == Add(a.global, Gained(steps, i + 1, |a.classes|))
  {
    var b' := Step(b, steps[i]);
    forall k | 0 <= k < |a.classes|
      ensures b'.classes[k] == (a.classes[k].0, Add(a.classes[k].1, Gained(steps, i + 1, k)))
    {
      StepAt(b, steps[i], k);
    }
    GlobalStep(b, steps[i]);
  }

  /** What one pass does to the global counter. */
  lemma GlobalStep<F>(a: Annotators, st: FrameStep<F>)
    requires Shaped(st, |a.classes|)
    ensures Step(a, st).global ==
            if Ran(st, |a.classes|) then Add(a.global, st.crossings[|a.classes|]) else a.global
  {
  }

  /** What one pass does to class counter `k`. */
  lemma StepAt<F>(a: Annotators, st: FrameStep<F>, k: nat)
    requires Shaped(st, |a.classes|) && k < |a.classes|
    ensures Step(a, st).classes[k] ==
            (a.classes[k].0, if Ran(st, k) then Add(a.classes[k].1, st.crossings[k]) else a.classes[k].1)
  {
  }

  /** One class counter's tally. */
  function Total(c: Counter): nat {
    c.inCount + c.outCount
  }

  /** The sum of the class counters' tallies, the value saved as `detections_count`. */
  function SumCounts(classes: seq<(int, Counter)>): nat {
    if classes == [] then 0
    else SumCounts(classes[..|classes| - 1]) + Total(classes[|classes| - 1].1)
  }

  /** The classes that counted anything, with their tallies, in key order. */
  function Counted(classes: seq<(int, Counter)>): (r: seq<(int, nat)>)
    ensures forall j :: 0 <= j < |r| ==> r[j].1 > 0
  {
    if classes == [] then []
    else
      var n := |classes| - 1;
      var t := Total(classes[n].1);
      Counted(classes[..n]) + (if t > 0 then [(classes[n].0, t)] else [])
  }

  /** A class gets a record exactly when its counter counted something, and the record carries
      that counter's tally. */
  lemma {:induction false} CountedMembers(classes: seq<(int, Counter)>)
    ensures forall k :: 0 <= k < |classes| && Total(classes[k].1) > 0 ==>
              (classes[k].0, Total(classes[k].1)) in Counted(classes)
    ensures forall p :: p in Counted(classes) ==>
              exists k :: 0 <= k < |classes| && p == (classes[k].0, Total(classes[k].1))
    decreases |classes|
  {
    if classes != [] {
      var n := |classes| - 1;
      var init := classes[..n];
      CountedMembers(init);
      forall k | 0 <= k < |classes| && Total(classes[k].1) > 0
        ensures (classes[k].0, Total(classes[k].1)) in Counted(classes)
      {
        if k < n {
          assert init[k] == classes[k];
        }
      }
      forall p | p in Counted(classes)
        ensures exists k :: 0 <= k < |classes| && p == (classes[k].0, Total(classes[k].1))
      {
        if p in Counted(init) {
          var k :| 0 <= k < |init| && p == (init[k].0, Total(init[k].1));
          assert init[k] == classes[k];
        } else {
          assert p == (classes[n].0, Total(classes[n].1));
        }
      }
    }
  }

  /** The tallies of a list of counted classes, added up. */
  function SumCounted(cs: seq<(int, nat)>): nat {
    if cs == [] then 0 else SumCounted(cs[..|cs| - 1]) + cs[|cs| - 1].1
  }

  /** Skipping the classes that counted nothing does not change the sum. */
  lemma {:induction false} CountedSum(classes: seq<(int, Counter)>)
    ensures SumCounted(Counted(classes)) == SumCounts(classes)
  {
    if classes != [] {
      var n := |classes| - 1;
      CountedSum(classes[..n]);
      var t := Total(classes[n].1);
      assert SumCounts(classes) == SumCounts(classes[..n]) + t;
      if t > 0 {
        var r := Counted(classes[..n]) + [(classes[n].0, t)];
        assert Counted(classes) == r;
        assert r[..|r| - 1] == Counted(classes[..n]);
        assert SumCounted(r) == SumCounted(Counted(classes[..n])) + t;
      } else {
        assert Counted(classes) == Counted(classes[..n]);
      }
    }
  }

  /** The detection row saved for one class. */
  datatype DetectionRecord = DetectionRecord(className: string, count: nat, frequency: real)

  /** The measurement update saved at the end of a prediction. */
  datatype PredictionUpdate = PredictionUpdate(status: string, outputKey: string,
                                               detectionsCount: nat, globalFrequency: real)

  /** `str.upper()` on ASCII letters. */
  function Upper(s: string): (u: string)
    ensures |u| == |s|
  {
    seq(|s|, i requires 0 <= i < |s| => if 'a' <= s[i] <= 'z' then (s[i] as int - 32) as char else s[i])
  }

  /** The record a counted class gets. */
  function RecordOf(c: (int, nat), names: map<int, string>, duration: int): DetectionRecord
    requires c.0 in names && duration != 0
  {
    DetectionRecord(Upper(names[c.0]), c.1, c.1 as real / duration as real)
  }

  /** `save_result_statistics`: one detection record per class that counted something, in key
      order, then the measurement update. A zero duration raises ZeroDivisionError before any
      record (the frequency is computed before the zero-count check, and the global frequency
      divides even when there are no classes); a counted class without a model name raises
      AttributeError after the records of the classes before it. */
  method SaveResultStatistics(classes: seq<(int, Counter)>, duration: int, names: map<int, string>, outputKey: string)
    returns (records: seq<DetectionRecord>, outcome: Result<PredictionUpdate>)
    ensures duration == 0 ==> records == [] && outcome == Err(ZeroDivisionError)
    ensures outcome.Ok? <==> duration != 0 && forall j :: 0 <= j < |Counted(classes)| ==> Counted(classes)[j].0 in names
    ensures outcome.Err? ==> records == [] || outcome.failure == AttributeError
    ensures |records| <= |Counted(classes)|
    ensures forall j :: 0 <= j < |records| ==>
              Counted(classes)[j].0 in names && duration != 0 &&
              records[j] == RecordOf(Counted(classes)[j], names, duration)
    ensures outcome.Ok? ==>
              && |records| == |Counted(classes)|
              && outcome.value == PredictionUpdate("PREDICTED", outputKey, SumCounts(classes),
                                                   SumCounts(classes) as real / duration as real)
    ensures outcome.Err? && duration != 0 ==>
              && outcome.failure == AttributeError
              && |records| < |Counted(classes)|
              && Counted(classes)[|records|].0 !in names
  {
    records := [];
    if duration == 0 {
      outcome := Err(ZeroDivisionError);
      return;
    }
    var globalCount := 0;
    var i := 0;
    while i < |classes|
      invariant 0 <= i <= |classes|
      invariant globalCount == SumCounts(classes[..i])
      invariant |records| == |Counted(classes[..i])|
      invariant forall j :: 0 <= j < |records| ==>
                  Counted(classes[..i])[j].0 in names && records[j] == RecordOf(Counted(classes[..i])[j], names, duration)
    {
      PrefixLast(classes, i);
      var count := Total(classes[i].1);
      globalCount := globalCount + count;
      if count > 0 {
        if classes[i].0 !in names {
          CountedPrefix(classes, i + 1);
          assert Counted(classes)[|records|] == (classes[i].0, count);
          outcome := Err(AttributeError);
          return;
        }
        records := records + [RecordOf((classes[i].0, count), names, duration)];
      }
      i := i + 1;
    }
    assert classes[..|classes|] == classes;
    outcome := Ok(PredictionUpdate("PREDICTED", outputKey, globalCount, globalCount as real / duration as real));
  }

  /** Extending a prefix by one class adds that class's tally and, when positive, its record. */
  lemma PrefixLast(classes: seq<(int, Counter)>, i: nat)
    requires i < |classes|
    ensures SumCounts(classes[..i + 1]) == SumCounts(classes[..i]) + Total(classes[i].1)
    ensures Counted(classes[..i + 1]) ==
            Counted(classes[..i]) + (if Total(classes[i].1) > 0 then [(classes[i].0, Total(classes[i].1))] else [])
  {
    assert classes[..i + 1][..i] == classes[..i];
  }

  /** The counted classes of a prefix are a prefix of the counted classes. */
  lemma {:induction false} CountedPrefix(classes: seq<(int, Counter)>, i: nat)
    requires i <= |classes|
    ensures Counted(classes[..i]) <= Counted(classes)
    decreases |classes| - i
  {
    if i < |classes| {
      CountedPrefix(classes, i + 1);
      assert classes[..i + 1][..i] == classes[..i];
    } else {
      assert classes[..i] == classes;
    }
  }

  /** The saved `detections_count` is the sum of the saved per-class counts: classes that counted
      nothing add nothing, and the global counter does not enter it. */
  lemma SavedCountIsSumOfRecords(classes: seq<(int, Counter)>, duration: int, names: map<int, string>,
                                 records: seq<DetectionRecord>, u: PredictionUpdate)
    requires duration != 0
    requires |records| == |Counted(classes)|
    requires forall j :: 0 <= j < |records| ==>
               Counted(classes)[j].0 in names && records[j] == RecordOf(Counted(classes)[j], names, duration)
    requires u.detectionsCount == SumCounts(classes)
    ensures u.detectionsCount == SumRecords(records)
  {
    CountedSum(classes);
    RecordSum(Counted(classes), names, duration, records);
  }

  function SumRecords(records: seq<DetectionRecord>): nat {
    if records == [] then 0 else SumRecords(records[..|records| - 1]) + records[|records| - 1].count
  }

  lemma {:induction false} RecordSum(cs: seq<(int, nat)>, names: map<int, string>, duration: int, records: seq<DetectionRecord>)
    requires duration != 0
    requires |records| == |cs|
    requires forall j :: 0 <= j < |records| ==> cs[j].0 in names && records[j] == RecordOf(cs[j], names, duration)
    ensures SumRecords(records) == SumCounted(cs)
  {
    if cs != [] {
      var n := |cs| - 1;
      RecordSum(cs[..n], names, duration, records[..n]);
    }
  }

  /** The inputs of the counters for one tracked frame: the filtered detections go to the global
      counter and their per-class extracts to the class counters, which partition them. */
  function FrameInputs(d: Detections, trackIds: Option<seq<int>>, allowed: seq<int>, threshold: real)
    : (r: (Detections, seq<Detections>))
    requires WellFormed(d)
    requires trackIds.Some? ==> |trackIds.value| == Count(d)
    ensures WellFormed(r.0) && |r.1| == |Dedup(allowed)|
    ensures forall x :: x in Rows(r.0) ==> Passes(x, allowed, threshold)
    ensures forall k :: 0 <= k < |r.1| ==>
              WellFormed(r.1[k]) && Rows(r.1[k]) == ClassRows(Rows(r.0), Dedup(allowed)[k])
    ensures multiset(Rows(r.0)) == ExtractUnion(r.0, Dedup(allowed))
  {
    var t := if trackIds.Some? then d.(trackerId := trackIds) else d;
    var g := ProcessFrameDetections(d, trackIds, allowed, threshold);
    FilteredPartition(t, allowed, threshold);
    var ids := Dedup(allowed);
    (g, seq(|ids|, k requires 0 <= k < |ids| => ExtractClassDetections(g, ids[k])))
  }

  /** The class ids the older `VideoProcessor` counts. */
  const LegacyClassIds: seq<int> := [1, 2, 3, 5, 7]

  /** The older `_get_line_points`: a vertical line through the middle, or a horizontal line at
      y = 100 drawn from right to left whatever the height; any other orientation gives None. */
  function LegacyLinePoints(width: nat, height: nat, orient: string): (l: Option<Line>)
    ensures l.Some? <==> orient == "vertical" || orient == "horizontal"
    ensures orient == "vertical" ==>
              && l.value.start.x == l.value.end.x
              && 2 * l.value.start.x <= width < 2 * l.value.start.x + 2
              && l.value.start.y == 0 && l.value.end.y == height
    ensures orient == "horizontal" ==> l == Some(Line(Point(width, 100), Point(0, 100)))
  {
    if orient == "vertical" then
      var x := Trunc(width as real / 2.0);
      Some(Line(Point(x, 0), Point(x, height)))
    else if orient == "horizontal" then
      Some(Line(Point(width, 100), Point(0, 100)))
    else None
  }

  /** The older `get_line_annotator`: a fresh counter on the horizontal line, whatever
      orientation is asked for. */
  function LegacyLineCounter(width: nat, height: nat, orient: string): (c: Counter)
    ensures c.line == Line(Point(width, 100), Point(0, 100))
    ensures c.inCount == 0 && c.outCount == 0
  {
    NewCounter(LegacyLinePoints(width, height, "horizontal").value)
  }

  /** The older counter only ever sees the horizontal line: the orientation and the height
      make no difference. */
  lemma LegacyCounterIgnoresOrientation(width: nat, h1: nat, h2: nat, o1: string, o2: string)
    ensures LegacyLineCounter(width, h1, o1) == LegacyLineCounter(width, h2, o2)
    ensures LegacyLineCounter(width, h1, o1).line.start.y == 100
  {
  }

  /** The older annotators: a global counter and counters for 1, 2, 3, 5 and 7, all on the
      horizontal line. */
  function LegacyAnnotators(width: nat, height: nat): (a: Annotators)
    ensures a == InstantiateAnnotators(Line(Point(width, 100), Point(0, 100)), LegacyClassIds)
    ensures |a.classes| == 5
  {
    LegacyIdsAreDistinct();
    InstantiateAnnotators(LegacyLineCounter(width, height, "horizontal").line, LegacyClassIds)
  }

  /** The older class list has no repeats, so its counter dict keeps it as it is. */
  lemma LegacyIdsAreDistinct()
    ensures Dedup(LegacyClassIds) == LegacyClassIds
  {
    var ids := LegacyClassIds;
    DedupFresh(ids[..0], ids[0]);
    assert ids[..0] + [ids[0]] == ids[..1];
    DedupFresh(ids[..1], ids[1]);
    assert ids[..1] + [ids[1]] == ids[..2];
    DedupFresh(ids[..2], ids[2]);
    assert ids[..2] + [ids[2]] == ids[..3];
    DedupFresh(ids[..3], ids[3]);
    assert ids[..3] + [ids[3]] == ids[..4];
    DedupFresh(ids[..4], ids[4]);
    assert ids[..4] + [ids[4]] == ids;
  }

  /** Appending an id not yet present keeps a repeat-free list as it is. */
  lemma DedupFresh(cs: seq<int>, x: int)
    requires Dedup(cs) == cs && x !in cs
    ensures Dedup(cs + [x]) == cs + [x]
  {
    assert (cs + [x])[..|cs|] == cs;
  }

  /** The older per-frame inputs: the global counter gets every detection unfiltered, the class
      counters their class's extract. */
  function LegacyFrameInputs(d: Detections, trackIds: Option<seq<int>>): (r: (Detections, seq<Detections>))
    requires WellFormed(d)
    requires trackIds.Some? ==> |trackIds.value| == Count(d)
    ensures WellFormed(r.0) && Rows(r.0) == Rows(if trackIds.Some? then d.(trackerId := trackIds) else d)
    ensures |r.1| == |LegacyClassIds|
    ensures forall k :: 0 <= k < |r.1| ==>
              WellFormed(r.1[k]) && Rows(r.1[k]) == ClassRows(Rows(r.0), LegacyClassIds[k])
  {
    var t := if trackIds.Some? then d.(trackerId := trackIds) else d;
    (t, seq(|LegacyClassIds|, k requires 0 <= k < |LegacyClassIds| => ExtractClassDetections(t, LegacyClassIds[k])))
  }

  /** In the older processor a detection of any other class (a person, say) reaches the global
      counter but no class counter. */
  lemma LegacyGlobalCountsOtherClasses(d: Detections, x: Detection)
    requires WellFormed(d) && x in Rows(d) && x.classId !in LegacyClassIds
    ensures var r := LegacyFrameInputs(d, None);
            x in Rows(r.0) && forall k :: 0 <= k < |r.1| ==> x !in Rows(r.1[k])
  {
    var r := LegacyFrameInputs(d, None);
    forall k | 0 <= k < |r.1|
      ensures x !in Rows(r.1[k])
    {
      ClassRowsHaveClass(Rows(r.0), LegacyClassIds[k]);
    }
  }

  lemma {:induction false} ClassRowsHaveClass(rows: seq<Detection>, c: int)
    ensures forall x :: x in ClassRows(rows, c) ==> x.classId == c && x in rows
    decreases |rows|
  {
    if rows != [] {
      var n := |rows| - 1;
      ClassRowsHaveClass(rows[..n], c);
      assert rows == rows[..n] + [rows[n]];
    }
  }
}

=== FILE: detections.dfy ===
/** Per-frame detections as the tracker hands them over: parallel columns (boxes, confidences,
    class ids, optional masks, optional tracker ids), the allow-list/confidence filter, and the
    per-class extraction that feeds the class counters. */
module Detections {
  import opened Wrappers

  /** A bounding box in pixel coordinates. */
  datatype Box = Box(x1: real, y1: real, x2: real, y2: real)

  /** A segmentation mask: one boolean per pixel, row by row. */
  type Mask = seq<seq<bool>>

  /** The columnar detections of one frame. */
  datatype Detections = Detections(xyxy: seq<Box>,
                                   confidence: seq<real>,
                                   classId: seq<int>,
                                   mask: Option<seq<Mask>>,
                                   trackerId: Option<seq<int>>)

  /** One detection, read across the columns. */
  datatype Detection = Detection(box: Box, confidence: real, classId: int,
                                 mask: Option<Mask>, trackerId: Option<int>)

  /** Every present column has one entry per detection. */
  predicate WellFormed(d: Detections) {
    && |d.xyxy| == |d.classId|
    && |d.confidence| == |d.classId|
    && (d.mask.Some? ==> |d.mask.value| == |d.classId|)
    && (d.trackerId.Some? ==> |d.trackerId.value| == |d.classId|)
  }

  function Count(d: Detections): nat {
    |d.classId|
  }

  /** The `i`-th detection. */
  function At(d: Detections, i: nat): Detection
    requires WellFormed(d) && i < Count(d)
  {
    Detection(d.xyxy[i], d.confidence[i], d.classId[i],
              if d.mask.Some? then Some(d.mask.value[i]) else None,
              if d.trackerId.Some? then Some(d.trackerId.value[i]) else None)
  }

  /** The detections one by one, in column order. */
  function Rows(d: Detections): (rows: seq<Detection>)
    requires WellFormed(d)
    ensures |rows| == Count(d)
  {
    seq(Count(d), i requires 0 <= i < Count(d) => At(d, i))
  }

  /** The positions a boolean index array keeps, in increasing order. */
  function Kept(keep: seq<bool>): (idx: seq<nat>)
    ensures forall j :: 0 <= j < |idx| ==> idx[j] < |keep| && keep[idx[j]]
    ensures forall j, j' :: 0 <= j < j' < |idx| ==> idx[j] < idx[j']
    ensures forall i :: 0 <= i < |keep| && keep[i] ==> i in idx
  {
    if keep == [] then []
    else
      var rest := Kept(keep[..|keep| - 1]);
      if keep[|keep| - 1] then rest + [|keep| - 1] else rest
  }

  /** `column[idx]`: the entries at the given positions. */
  function Pick<T>(s: seq<T>, idx: seq<nat>): (r: seq<T>)
    requires forall j :: 0 <= j < |idx| ==> idx[j] < |s|
    ensures |r| == |idx|
  {
    seq(|idx|, j requires 0 <= j < |idx| => s[idx[j]])
  }

  /** `detections[keep]`: one boolean index array applied to every column; an absent column
      stays absent. */
  function Select(d: Detections, keep: seq<bool>): (r: Detections)
    requires WellFormed(d) && |keep| == Count(d)
    ensures WellFormed(r)
    ensures r.mask.Some? <==> d.mask.Some?
    ensures r.trackerId.Some? <==> d.trackerId.Some?
    ensures Count(r) == |Kept(keep)|
    ensures forall j :: 0 <= j < Count(r) ==> At(r, j) == At(d, Kept(keep)[j])
  {
    var idx := Kept(keep);
    Detections(Pick(d.xyxy, idx), Pick(d.confidence, idx), Pick(d.classId, idx),
               if d.mask.Some? then Some(Pick(d.mask.value, idx)) else None,
               if d.trackerId.Some? then Some(Pick(d.trackerId.value, idx)) else None)
  }

  /** Row-wise reference: the rows a boolean index array keeps, in order. */
  function KeepWhere<T>(rows: seq<T>, keep: seq<bool>): seq<T>
    requires |rows| == |keep|
  {
    if rows == [] then []
    else
      var n := |rows| - 1;
      KeepWhere(rows[..n], keep[..n]) + (if keep[n] then [rows[n]] else [])
  }

  /** Masking the columns and then reading rows is filtering the rows. */
  lemma {:induction false} SelectRows(d: Detections, keep: seq<bool>)
    requires WellFormed(d) && |keep| == Count(d)
    ensures Rows(Select(d, keep)) == KeepWhere(Rows(d), keep)
  {
    var idx := Kept(keep);
    assert Rows(Select(d, keep)) == Pick(Rows(d), idx);
    PickKept(Rows(d), keep);
  }

  lemma {:induction false} PickKept<T>(s: seq<T>, keep: seq<bool>)
    requires |s| == |keep|
    ensures Pick(s, Kept(keep)) == KeepWhere(s, keep)
    decreases |s|
  {
    if s != [] {
      var n := |s| - 1;
      var rest := Kept(keep[..n]);
      PickKept(s[..n], keep[..n]);
      assert Pick(s, rest) == Pick(s[..n], rest);
      if keep[n] {
        assert Kept(keep) == rest + [n];
        assert Pick(s, rest + [n]) == Pick(s, rest) + [s[n]];
      } else {
        assert Kept(keep) == rest;
      }
    }
  }

  /** The filter of `process_frame_detections` on one detection: an allowed class and a
      confidence strictly above the threshold. */
  predicate Passes(x: Detection, allowed: seq<int>, threshold: real) {
    x.classId in allowed && x.confidence > threshold
  }

  /** Row-wise reference for the filter: the passing detections, in order. */
  function PassingRows(rows: seq<Detection>, allowed: seq<int>, threshold: real): seq<Detection> {
    if rows == [] then []
    else
      var n := |rows| - 1;
      PassingRows(rows[..n], allowed, threshold) + (if Passes(rows[n], allowed, threshold) then [rows[n]] else [])
  }

  /** The boolean index array `isin(class_id, ALLOWED_CLASS_ID) & (confidence > THRESHOLD)`. */
  function FilterMask(d: Detections, allowed: seq<int>, threshold: real): (keep: seq<bool>)
    requires WellFormed(d)
    ensures |keep| == Count(d)
  {
    seq(Count(d), i requires 0 <= i < Count(d) => d.classId[i] in allowed && d.confidence[i] > threshold)
  }

  /** The filtering step of `process_frame_detections`. */
  function FilterDetections(d: Detections, allowed: seq<int>, threshold: real): (r: Detections)
    requires WellFormed(d)
    ensures WellFormed(r)
    ensures r.mask.Some? <==> d.mask.Some?
    ensures r.trackerId.Some? <==> d.trackerId.Some?
    ensures Rows(r) == PassingRows(Rows(d), allowed, threshold)
  {
    var keep := FilterMask(d, allowed, threshold);
    SelectRows(d, keep);
    KeepPassing(Rows(d), keep, allowed, threshold);
    Select(d, keep)
  }

  lemma {:induction false} KeepPassing(rows: seq<Detection>, keep: seq<bool>, allowed: seq<int>, threshold: real)
    requires |rows| == |keep|
    requires forall i :: 0 <= i < |rows| ==> (keep[i] <==> Passes(rows[i], allowed, threshold))
    ensures KeepWhere(rows, keep) == PassingRows(rows, allowed, threshold)
    decreases |rows|
  {
    if rows != [] {
      var n := |rows| - 1;
      KeepPassing(rows[..n], keep[..n], allowed, threshold);
    }
  }

  /** `process_frame_detections` after the tracker: the tracker's ids, when it reports any,
      replace the tracker-id column, and then the filter applies. */
  function ProcessFrameDetections(d: Detections, trackIds: Option<seq<int>>, allowed: seq<int>, threshold: real): (r: Detections)
    requires WellFormed(d)
    requires trackIds.Some? ==> |trackIds.value| == Count(d)
    ensures WellFormed(r)
    ensures r.trackerId.Some? <==> trackIds.Some? || d.trackerId.Some?
    ensures Rows(r) == PassingRows(Rows(if trackIds.Some? then d.(trackerId := trackIds) else d), allowed, threshold)
    ensures forall x :: x in Rows(r) ==> Passes(x, allowed, threshold)
    ensures forall j :: 0 <= j < Count(r) && trackIds.Some? ==> At(r, j).trackerId.value in trackIds.value
  {
    var t := if trackIds.Some? then d.(trackerId := trackIds) else d;
    var r := FilterDetections(t, allowed, threshold);
    PassingRowsPass(Rows(t), allowed, threshold);
    forall j | 0 <= j < Count(r) && trackIds.Some?
      ensures At(r, j).trackerId.value in trackIds.value
    {
      var keep := FilterMask(t, allowed, threshold);
      assert At(r, j) == At(t, Kept(keep)[j]);
    }
    r
  }

  lemma {:induction false} PassingRowsPass(rows: seq<Detection>, allowed: seq<int>, threshold: real)
    ensures forall x :: x in PassingRows(rows, allowed, threshold) ==> x in rows && Passes(x, allowed, threshold)
    decreases |rows|
  {
    if rows != [] {
      var n := |rows| - 1;
      PassingRowsPass(rows[..n], allowed, threshold);
      assert rows == rows[..n] + [rows[n]];
    }
  }

  /** Row-wise reference for one class: its detections, in order. */
  function ClassRows(rows: seq<Detection>, c: int): seq<Detection> {
    if rows == [] then []
    else
      var n := |rows| - 1;
      ClassRows(rows[..n], c) + (if rows[n].classId == c then [rows[n]] else [])
  }

  /** `extract_class_detections`: the mask `class_id == c` applied to every column; an absent
      mask or tracker-id column stays absent. */
  function ExtractClassDetections(d: Detections, c: int): (r: Detections)
    requires WellFormed(d)
    ensures WellFormed(r)
    ensures r.mask.Some? <==> d.mask.Some?
    ensures r.trackerId.Some? <==> d.trackerId.Some?
    ensures Rows(r) == ClassRows(Rows(d), c)
  {
    var keep := seq(Count(d), i requires 0 <= i < Count(d) => d.classId[i] == c);
    SelectRows(d, keep);
    KeepClass(Rows(d), keep, c);
    Select(d, keep)
  }

  lemma {:induction false} KeepClass(rows: seq<Detection>, keep: seq<bool>, c: int)
    requires |rows| == |keep|
    requires forall i :: 0 <= i < |rows| ==> (keep[i] <==> rows[i].classId == c)
    ensures KeepWhere(rows, keep) == ClassRows(rows, c)
    decreases |rows|
  {
    if rows != [] {
      var n := |rows| - 1;
      KeepClass(rows[..n], keep[..n], c);
    }
  }

  /** No class id occurs twice. */
  predicate NoDup(cs: seq<int>) {
    forall i, j :: 0 <= i < j < |cs| ==> cs[i] != cs[j]
  }

  /** The keys of a dict comprehension over `cs`: first occurrences, in order. */
  function Dedup(cs: seq<int>): (r: seq<int>)
    ensures NoDup(r)
    ensures forall c :: c in r <==> c in cs
  {
    if cs == [] then []
    else
      var n := |cs| - 1;
      var rest := Dedup(cs[..n]);
      assert forall c :: c in cs <==> c in cs[..n] || c == cs[n] by {
        assert cs == cs[..n] + [cs[n]];
      }
      if cs[n] in rest then rest else rest + [cs[n]]
  }

  /** All detections of the given classes, as a multiset: the per-class extracts put together. */
  function ExtractUnion(d: Detections, cs: seq<int>): multiset<Detection>
    requires WellFormed(d)
  {
    if cs == [] then multiset{}
    else multiset(Rows(ExtractClassDetections(d, cs[0]))) + ExtractUnion(d, cs[1..])
  }

  /** For a filtered frame, the extracts of the class counters (one per distinct allowed id)
      partition the detections: every detection is counted by exactly one class counter. */
  lemma FilteredPartition(d: Detections, allowed: seq<int>, threshold: real)
    requires WellFormed(d)
    ensures var f := FilterDetections(d, allowed, threshold);
            multiset(Rows(f)) == ExtractUnion(f, Dedup(allowed))
  {
    var f := FilterDetections(d, allowed, threshold);
    PassingRowsPass(Rows(d), allowed, threshold);
    var cs := Dedup(allowed);
    assert forall x :: x in Rows(f) ==> x.classId in cs;
    ClassPartition(Rows(f), cs);
    UnionOfExtracts(f, cs);
  }

  /** The multiset of the per-class rows, over a list of classes. */
  function ClassUnion(rows: seq<Detection>, cs: seq<int>): multiset<Detection> {
    if cs == [] then multiset{}
    else multiset(ClassRows(rows, cs[0])) + ClassUnion(rows, cs[1..])
  }

  lemma {:induction false} UnionOfExtracts(d: Detections, cs: seq<int>)
    requires WellFormed(d)
    ensures ExtractUnion(d, cs) == ClassUnion(Rows(d), cs)
    decreases |cs|
  {
    if cs != [] {
      UnionOfExtracts(d, cs[1..]);
    }
  }

  /** Rows whose classes all occur exactly once in `cs` are split by class without loss. */
  lemma {:induction false} ClassPartition(rows: seq<Detection>, cs: seq<int>)
    requires NoDup(cs)
    requires forall x :: x in rows ==> x.classId in cs
    ensures ClassUnion(rows, cs) == multiset(rows)
    decreases |rows|
  {
    if rows == [] {
      EmptyUnion(rows, cs);
    } else {
      var n := |rows| - 1;
      var x := rows[n];
      assert rows == rows[..n] + [x];
      ClassPartition(rows[..n], cs);
      UnionStep(rows[..n], x, cs);
      SingleClass(x, cs);
    }
  }

  lemma {:induction false} EmptyUnion(rows: seq<Detection>, cs: seq<int>)
    requires rows == []
    ensures ClassUnion(rows, cs) == multiset{}
    decreases |cs|
  {
    if cs != [] {
      EmptyUnion(rows, cs[1..]);
    }
  }

  /** The part of one detection that lands in the per-class union. */
  function Share(x: Detection, cs: seq<int>): multiset<Detection> {
    if cs == [] then multiset{}
    else (if x.classId == cs[0] then multiset{x} else multiset{}) + Share(x, cs[1..])
  }

  lemma {:induction false} UnionStep(rows: seq<Detection>, x: Detection, cs: seq<int>)
    ensures ClassUnion(rows + [x], cs) == ClassUnion(rows, cs) + Share(x, cs)
    decreases |cs|
  {
    if cs != [] {
      var r := rows + [x];
      assert r[..|r| - 1] == rows;
      UnionStep(rows, x, cs[1..]);
    }
  }

  /** A detection whose class occurs once in `cs` lands in exactly one extract. */
  lemma {:induction false} SingleClass(x: Detection, cs: seq<int>)
    requires NoDup(cs)
    ensures x.classId in cs ==> Share(x, cs) == multiset{x}
    ensures x.classId !in cs ==> Share(x, cs) == multiset{}
    decreases |cs|
  {
    if cs != [] {
      assert NoDup(cs[1..]) by {
        forall i, j | 0 <= i < j < |cs[1..]|
          ensures cs[1..][i] != cs[1..][j]
        {
          assert cs[1..][i] == cs[i + 1] && cs[1..][j] == cs[j + 1];
        }
      }
      SingleClass(x, cs[1..]);
      if x.classId == cs[0] {
        assert x.classId !in cs[1..] by {
          forall j | 0 <= j < |cs[1..]|
            ensures cs[1..][j] != x.classId
          {
            assert cs[1..][j] == cs[j + 1];
          }
        }
      }
    }
  }
}

=== FILE: orchestrator.dfy ===
/** The queue protocol shared by every processing stage: claim a task id from the origin list
    into the work-in-progress list, then either acknowledge it or escalate it to the error list. */
module Orchestrator {
  import opened Wrappers
  import opened RedisLists

  /** The three Redis lists a stage works on. */
  datatype Stage = Stage(origin: string, wip: string, error: string)

  /** The video optimisation stage. */
  const OptimizerStage := Stage("VIDEO_TODO", "VIDEO_WIP", "VIDEO_ERROR")

  /** The measurement prediction stage. */
  const PredictorStage := Stage("MEASUREMENTS_TODO", "MEASUREMENTS_WIP", "MEASUREMENTS_ERROR")

  predicate Distinct(st: Stage) {
    st.origin != st.wip && st.wip != st.error && st.origin != st.error
  }

  /** Every task id held by the stage, wherever it sits. */
  function Held(r: Keyspace, st: Stage): multiset<int> {
    multiset(List(r, st.origin)) + multiset(List(r, st.wip)) + multiset(List(r, st.error))
  }

  /** The entity whose status an escalation marks. */
  datatype EntityKind = VideoEntity | MeasurementEntity

  /** The `task_types` table of `send_task_to_error`. */
  function TaskKind(taskType: string): (k: Option<EntityKind>)
    ensures k.Some? <==> taskType == "video" || taskType == "measurement"
    ensures k == Some(VideoEntity) <==> taskType == "video"
  {
    if taskType == "video" then Some(VideoEntity)
    else if taskType == "measurement" then Some(MeasurementEntity)
    else None
  }

  /** `get_next_task`: move the tail of the origin list to the head of the WIP list and return it.
      Redis hands back the id as a non-empty byte string, which is always truthy, so every moved
      id (0 included) is returned. */
  function GetNextTask(r: Keyspace, st: Stage): (p: Popped)
    requires Distinct(st)
    ensures List(r, st.origin) == [] ==> p.item == None && p.after == r
    ensures List(r, st.origin) != [] ==>
              && p.item == Some(Last(List(r, st.origin)))
              && List(p.after, st.origin) + [Last(List(r, st.origin))] == List(r, st.origin)
              && List(p.after, st.wip) == [Last(List(r, st.origin))] + List(r, st.wip)
              && List(p.after, st.error) == List(r, st.error)
    ensures forall k :: k != st.origin && k != st.wip ==> List(p.after, k) == List(r, k)
  {
    RPopLPush(r, st.origin, st.wip)
  }

  /** `remove_complete_task`: drop the head of the WIP list. */
  function RemoveCompleteTask(r: Keyspace, st: Stage): (r': Keyspace)
    ensures List(r, st.wip) == [] ==> r' == r
    ensures List(r, st.wip) != [] ==> [List(r, st.wip)[0]] + List(r', st.wip) == List(r, st.wip)
    ensures forall k :: k != st.wip ==> List(r', k) == List(r, k)
  {
    LPop(r, st.wip).after
  }

  /** What `send_task_to_error` did before it returned or raised. */
  datatype Escalation =
      /** The WIP list was empty: `int(None)` raised TypeError; nothing moved. */
    | EmptyWip
      /** The id moved to the error list, then the unknown task type raised TypeError. */
    | UnknownKind(after: Keyspace, id: int)
      /** The id moved to the error list; its entity is to be set to status ERROR. */
    | MarkError(after: Keyspace, id: int, kind: EntityKind)

  /** `send_task_to_error`: move the tail of the WIP list to the head of the error list, then pick
      the status updater from the task type. */
  function SendTaskToError(r: Keyspace, st: Stage, taskType: string): (e: Escalation)
    requires Distinct(st)
    ensures e.EmptyWip? <==> List(r, st.wip) == []
    ensures !e.EmptyWip? ==>
              && e.id == Last(List(r, st.wip))
              && List(e.after, st.wip) + [e.id] == List(r, st.wip)
              && List(e.after, st.error) == [e.id] + List(r, st.error)
              && List(e.after, st.origin) == List(r, st.origin)
              && forall k :: k != st.wip && k != st.error ==> List(e.after, k) == List(r, k)
    ensures e.MarkError? <==> List(r, st.wip) != [] && TaskKind(taskType).Some?
    ensures e.MarkError? ==> Some(e.kind) == TaskKind(taskType)
  {
    var p := RPopLPush(r, st.wip, st.error);
    match p.item
    case None => EmptyWip
    case Some(id) =>
      match TaskKind(taskType)
      case None => UnknownKind(p.after, id)
      case Some(kind) => MarkError(p.after, id, kind)
  }

  /** Claiming keeps every id the stage holds: it only moves one id from origin to WIP. */
  lemma ClaimConserves(r: Keyspace, st: Stage)
    requires Distinct(st)
    ensures Held(GetNextTask(r, st).after, st) == Held(r, st)
  {
    var o := List(r, st.origin);
    if o != [] {
      var p := GetNextTask(r, st);
      assert List(p.after, st.origin) + [Last(o)] == o;
      calc {
        multiset(o);
        multiset(List(p.after, st.origin) + [Last(o)]);
        multiset(List(p.after, st.origin)) + multiset{Last(o)};
      }
    }
  }

  /** The queue move of an escalation keeps every id the stage holds. */
  lemma EscalateConserves(r: Keyspace, st: Stage, taskType: string)
    requires Distinct(st)
    requires List(r, st.wip) != []
    ensures Held(SendTaskToError(r, st, taskType).after, st) == Held(r, st)
  {
    var w := List(r, st.wip);
    var e := SendTaskToError(r, st, taskType);
    assert multiset(w) == multiset(List(e.after, st.wip)) + multiset{e.id} by {
      assert List(e.after, st.wip) + [e.id] == w;
    }
  }

  /** When WIP held nothing before the claim, acknowledging removes exactly the claimed id and
      escalating moves exactly the claimed id: both act on the task just taken. */
  lemma SoleClaimIsActedOn(r: Keyspace, st: Stage, taskType: string)
    requires Distinct(st)
    requires List(r, st.origin) != [] && List(r, st.wip) == []
    ensures var c := GetNextTask(r, st);
            && c.item.Some?
            && List(RemoveCompleteTask(c.after, st), st.wip) == []
            && var e := SendTaskToError(c.after, st, taskType);
               !e.EmptyWip? && e.id == c.item.value && List(e.after, st.wip) == []
  {
    var c := GetNextTask(r, st);
    assert List(c.after, st.wip) == [c.item.value];
    var e := SendTaskToError(c.after, st, taskType);
    assert List(e.after, st.wip) + [e.id] == [c.item.value];
  }

  /** When WIP already held older ids, acknowledging still removes the id just claimed, but
      escalating moves the OLDEST id in WIP and leaves the claimed one behind. */
  lemma OlderWipIsEscalated(r: Keyspace, st: Stage, taskType: string)
    requires Distinct(st)
    requires List(r, st.origin) != [] && List(r, st.wip) != []
    ensures var c := GetNextTask(r, st);
            && [c.item.value] + List(RemoveCompleteTask(c.after, st), st.wip) == List(c.after, st.wip)
            && List(RemoveCompleteTask(c.after, st), st.wip) == List(r, st.wip)
            && var e := SendTaskToError(c.after, st, taskType);
               && e.id == Last(List(r, st.wip))
               && List(e.after, st.wip)[0] == c.item.value
  {
    var c := GetNextTask(r, st);
    var w := List(r, st.wip);
    assert List(c.after, st.wip) == [c.item.value] + w;
    var e := SendTaskToError(c.after, st, taskType);
    assert List(e.after, st.wip) + [e.id] == [c.item.value] + w;
    assert ([c.item.value] + w)[|w|] == Last(w);
    assert (List(e.after, st.wip) + [e.id])[0] == c.item.value;
  }

  /** The ids that `n` successive claims hand out. */
  function Claims(r: Keyspace, st: Stage, n: nat): (ids: seq<int>)
    requires Distinct(st)
    ensures |ids| <= n
    decreases n
  {
    if n == 0 then []
    else
      var p := GetNextTask(r, st);
      match p.item
      case None => []
      case Some(id) => [id] + Claims(p.after, st, n - 1)
  }

  /** Claims follow the tail order of the origin list. */
  lemma {:induction false} ClaimsDrainOrigin(r: Keyspace, st: Stage, n: nat)
    requires Distinct(st)
    requires n <= |List(r, st.origin)|
    ensures Claims(r, st, n) == Drain(List(r, st.origin))[..n]
    decreases n
  {
    if n > 0 {
      var o := List(r, st.origin);
      var p := GetNextTask(r, st);
      var o' := o[..|o| - 1];
      assert List(p.after, st.origin) == o' by {
        assert List(p.after, st.origin) + [Last(o)] == o;
      }
      assert p.item == Some(Last(o));
      assert Claims(r, st, n) == [Last(o)] + Claims(p.after, st, n - 1);
      ClaimsDrainOrigin(p.after, st, n - 1);
      assert Drain(o) == [Last(o)] + Drain(o');
      assert Drain(o)[..n] == [Last(o)] + Drain(o')[..n - 1];
    }
  }

  /** With producers that LPUSH onto an empty origin list, a stage claims ids in push order. */
  lemma ClaimsInPushOrder(r: Keyspace, st: Stage, xs: seq<int>)
    requires Distinct(st)
    requires List(r, st.origin) == []
    ensures var r' := r[st.origin := PushAll([], xs)];
            Claims(r', st, |xs|) == xs
  {
    var r' := r[st.origin := PushAll([], xs)];
    assert List(r', st.origin) == PushAll([], xs);
    DrainPushAll([], xs);
    assert Drain([]) == [];
    assert Drain(PushAll([], xs)) == xs;
    ClaimsDrainOrigin(r', st, |xs|);
    assert Drain(PushAll([], xs))[..|xs|] == xs;
  }
}

=== FILE: passwords.dfy ===
/** The password rules of the API: a length check, four character classes with one error message
    listing the missing ones in a fixed order, and hashing only after the rules pass. The hash is
    a parameter (bcrypt is foreign code). */
module Passwords {
  import opened Wrappers

  /** The four character classes a password needs. */
  datatype CharClass = Lowercase | Uppercase | Special | Number

  /** `\w` on ASCII: letters, digits and the underscore. */
  predicate IsWordChar(c: char) {
    'a' <= c <= 'z' || 'A' <= c <= 'Z' || '0' <= c <= '9' || c == '_'
  }

  /** The regular-expression class of each check: `[a-z]`, `[A-Z]`, `\W` and `\d`. */
  predicate InClass(c: char, cls: CharClass) {
    match cls
    case Lowercase => 'a' <= c <= 'z'
    case Uppercase => 'A' <= c <= 'Z'
    case Special => !IsWordChar(c)
    case Number => '0' <= c <= '9'
  }

  /** `re.findall` finds at least one match of the class in the password. */
  predicate Has(p: string, cls: CharClass) {
    p != [] && (InClass(p[0], cls) || Has(p[1..], cls))
  }

  /** The phrase each missing class adds to the message. */
  function Part(cls: CharClass): string {
    match cls
    case Lowercase => " one lowercase letter,"
    case Uppercase => " one uppercase letters,"
    case Special => " one special character,"
    case Number => " one number,"
  }

  const TooShort: string := "Password must contain at least 8 characters"

  /** The start of the class message: the f-string's backslash continuation keeps the twenty
      spaces that indent its second line. */
  const Head: string := "Password must contain at least " + "                    "

  /** The class's entry in the message: empty when the password has the class. */
  function IfMissing(p: string, cls: CharClass): seq<CharClass> {
    if Has(p, cls) then [] else [cls]
  }

  /** The four checks of `test_password_format`, in their order. */
  function Missing(p: string): (r: seq<CharClass>)
    ensures Lowercase in r <==> !Has(p, Lowercase)
    ensures Uppercase in r <==> !Has(p, Uppercase)
    ensures Special in r <==> !Has(p, Special)
    ensures Number in r <==> !Has(p, Number)
    ensures Ascending(r)
  {
    IfMissing(p, Lowercase) + IfMissing(p, Uppercase) + IfMissing(p, Special) + IfMissing(p, Number)
  }

  function Concat(parts: seq<CharClass>): string {
    if parts == [] then "" else Part(parts[0]) + Concat(parts[1..])
  }

  /** `re.sub(r',\Z', '.', s)`: a comma that ends the string becomes a full stop. */
  function EndWithStop(s: string): (t: string)
    ensures |t| == |s|
    ensures |s| > 0 && s[|s| - 1] == ',' ==> t == s[..|s| - 1] + "."
    ensures !(|s| > 0 && s[|s| - 1] == ',') ==> t == s
  {
    if |s| > 0 && s[|s| - 1] == ',' then s[..|s| - 1] + "." else s
  }

  function Message(p: string): string {
    EndWithStop(Head + Concat(Missing(p)))
  }

  /** A password has a class when one of its characters is in it, */
  lemma {:induction false} HasAt(p: string, i: nat, cls: CharClass)
    requires i < |p| && InClass(p[i], cls)
    ensures Has(p, cls)
    decreases i
  {
    if i > 0 {
      HasAt(p[1..], i - 1, cls);
    }
  }

  /** and only then. */
  lemma {:induction false} HasNone(p: string, cls: CharClass)
    requires forall i :: 0 <= i < |p| ==> !InClass(p[i], cls)
    ensures !Has(p, cls)
    decreases |p|
  {
    if p != [] {
      HasNone(p[1..], cls);
    }
  }

  /** `re.sub` on a message whose last part ends in a comma. */
  lemma StopShape(h: string, x: string)
    requires |x| > 0 && x[|x| - 1] == ','
    ensures EndWithStop(h + x) == h + x[..|x| - 1] + "."
  {
    var s := h + x;
    assert s[..|s| - 1] == h + x[..|x| - 1];
  }

  /** The password has all four classes. */
  predicate HasAll(p: string) {
    Has(p, Lowercase) && Has(p, Uppercase) && Has(p, Special) && Has(p, Number)
  }

  /** `test_password_format`: None when the password passes, otherwise the 400 it raises. */
  function TestPasswordFormat(p: string): (r: Result<()>)
    ensures |p| < 8 ==> r == Err(HttpError(400, TooShort))
    ensures |p| >= 8 ==> (r.Ok? <==> HasAll(p))
    ensures |p| >= 8 && r.Err? ==> r.failure == HttpError(400, Message(p))
  {
    if |p| < 8 then Err(HttpError(400, TooShort))
    else if Missing(p) != [] then
      Err(HttpError(400, Message(p)))
    else Ok(())
  }

  /** Every class message starts with the fixed head, names each missing class once in the
      order lowercase, uppercase, special, number, and ends with a full stop. */
  lemma MessageShape(p: string)
    requires Missing(p) != []
    ensures var m := Message(p);
            && Head <= m
            && m[|m| - 1] == '.'
            && m == Head + Concat(Missing(p))[..|Concat(Missing(p))| - 1] + "."
  {
    EndsWithComma(Missing(p));
    StopShape(Head, Concat(Missing(p)));
  }

  lemma {:induction false} EndsWithComma(parts: seq<CharClass>)
    requires parts != []
    ensures |Concat(parts)| > 0 && Concat(parts)[|Concat(parts)| - 1] == ','
    decreases |parts|
  {
    if parts[1..] != [] {
      EndsWithComma(parts[1..]);
    }
  }

  /** The position of a class in the message order. */
  function Rank(c: CharClass): nat {
    match c
    case Lowercase => 0
    case Uppercase => 1
    case Special => 2
    case Number => 3
  }

  /** The classes come in message order, each at most once. */
  predicate Ascending(cs: seq<CharClass>) {
    forall i, j :: 0 <= i < j < |cs| ==> Rank(cs[i]) < Rank(cs[j])
  }

  /** The underscore is a word character, so it does not count as a special character. */
  lemma UnderscoreIsNotSpecial(p: string)
    requires p == "Passw0rd_"
    ensures TestPasswordFormat(p) == Err(HttpError(400, Head + " one special character."))
  {
    HasAt(p, 1, Lowercase);
    HasAt(p, 0, Uppercase);
    HasAt(p, 5, Number);
    assert forall i :: 0 <= i < |p| ==> IsWordChar(p[i]);
    HasNone(p, Special);
    OnlySpecialMissing(p);
  }

  lemma OnlySpecialMissing(p: string)
    requires Missing(p) == [Special]
    ensures Message(p) == Head + " one special character."
  {
    assert Concat([Special]) == " one special character,";
    StopShape(Head, " one special character,");
  }

  /** Eight spaces are long enough and special, but lack the three other classes, which the
      message lists in order. */
  lemma OnlySpaces(p: string)
    requires p == "        "
    ensures TestPasswordFormat(p) ==
              Err(HttpError(400, Head + " one lowercase letter," + " one uppercase letters," + " one number."))
  {
    assert forall i :: 0 <= i < |p| ==> p[i] == ' ';
    HasNone(p, Lowercase);
    HasNone(p, Uppercase);
    HasNone(p, Number);
    HasAt(p, 0, Special);
    ThreeMissing(p);
  }

  lemma ThreeMissing(p: string)
    requires Missing(p) == [Lowercase, Uppercase, Number]
    ensures Message(p) == Head + " one lowercase letter," + " one uppercase letters," + " one number."
  {
    var parts := [Lowercase, Uppercase, Number];
    assert parts[1..] == [Uppercase, Number] && parts[1..][1..] == [Number];
    assert Concat(parts) == Part(Lowercase) + Part(Uppercase) + Part(Number);
    assert Head + Concat(parts) == (Head + Part(Lowercase) + Part(Uppercase)) + Part(Number);
    StopShape(Head + Part(Lowercase) + Part(Uppercase), Part(Number));
    assert Part(Number)[..|Part(Number)| - 1] + "." == " one number.";
  }

  /** `get_password_hash`: the hash of a password that passed the rules; a password that fails
      them is never hashed and the 400 propagates. */
  function GetPasswordHash(p: string, hash: string -> string): (r: Result<string>)
    ensures r.Ok? <==> TestPasswordFormat(p).Ok?
    ensures r.Ok? ==> r.value == hash(p)
    ensures r.Err? ==> r.failure == TestPasswordFormat(p).failure
  {
    match TestPasswordFormat(p)
    case Err(f) => Err(f)
    case Ok(_) => Ok(hash(p))
  }
}

=== FILE: pipeline.dfy ===
/** One `process_task` step of each of the two stages, and the optimisation stage's fan-out of
    waiting measurements onto the prediction queue. The processing call itself (optimising or
    predicting) is a parameter: how it ended and the database it left behind. */
module Pipeline {
  import opened Wrappers
  import opened Records
  import opened RedisLists
  import opened Orchestrator
  import opened VideoService

  /** The Redis keyspace and the database together. */
  datatype System = System(keys: Keyspace, db: Db)

  /** How the stage's processing call ended, with the database as it left it. */
  datatype Run = Completed(db: Db) | Raised(db: Db)

  /** What one `process_task` call did. */
  datatype Outcome =
      /** Nothing usable was claimed; `slept` says whether the stage slept before returning. */
    | NoTask(slept: bool)
    | Acknowledged(id: int)
      /** The except branch escalated the WIP entry `id`. */
    | Escalated(id: int)
      /** The except branch itself raised, so the exception left `process_task`. */
    | Crashed(failure: Failure)

  function StatusUpdate(status: string): Fields {
    map["status" := Str(status)]
  }

  /** Status of a row, as a plain value. */
  function Status(r: Row): Value {
    Field(r.fields, "status")
  }

  /** The second half of `send_task_to_error`: set status ERROR on the chosen entity. */
  function ApplyEscalation(s: System, e: Escalation): (res: (System, Outcome))
    ensures e.EmptyWip? ==> res == (s, Crashed(TypeError("int() argument must not be None")))
    ensures e.UnknownKind? ==> res.0 == System(e.after, s.db) && res.1.Crashed?
    ensures e.MarkError? ==> res.0.keys == e.after && res.1 == Escalated(e.id)
    ensures e.MarkError? && e.kind == VideoEntity ==>
              res.0.db == UpdateVideo(s.db, e.id, StatusUpdate("ERROR")).0
    ensures e.MarkError? && e.kind == MeasurementEntity ==>
              res.0.db == UpdateMeasurement(s.db, e.id, StatusUpdate("ERROR")).0
  {
    match e
    case EmptyWip => (s, Crashed(TypeError("int() argument must not be None")))
    case UnknownKind(after, _) => (System(after, s.db), Crashed(TypeError("cannot unpack None")))
    case MarkError(after, id, VideoEntity) =>
      (System(after, UpdateVideo(s.db, id, StatusUpdate("ERROR")).0), Escalated(id))
    case MarkError(after, id, MeasurementEntity) =>
      (System(after, UpdateMeasurement(s.db, id, StatusUpdate("ERROR")).0), Escalated(id))
  }

  function Escalate(s: System, st: Stage, taskType: string): (System, Outcome)
    requires Distinct(st)
  {
    ApplyEscalation(s, SendTaskToError(s.keys, st, taskType))
  }

  /** The guard of the fan-out: the measurement's status is the literal 'REQUESTED'. */
  predicate Requested(m: Row) {
    Status(m) == Str("REQUESTED")
  }

  /** The ids the fan-out loop picks from `ms`, in order. */
  function Picked(ms: seq<Row>): seq<int> {
    if ms == [] then []
    else (if Requested(ms[0]) then [ms[0].id] else []) + Picked(ms[1..])
  }

  /** The ids of the measurements in `ms` whose status is 'REQUESTED': exactly those, in order. */
  function RequestedIds(ms: seq<Row>): (ids: seq<int>)
    ensures forall m :: m in ms && Requested(m) ==> m.id in ids
    ensures forall x :: x in ids ==> exists m :: m in ms && Requested(m) && m.id == x
  {
    PickedMembers(ms);
    Picked(ms)
  }

  lemma {:induction false} PickedMembers(ms: seq<Row>)
    ensures forall m :: m in ms && Requested(m) ==> m.id in Picked(ms)
    ensures forall x :: x in Picked(ms) ==> exists m :: m in ms && Requested(m) && m.id == x
    decreases |ms|
  {
    if ms != [] {
      PickedMembers(ms[1..]);
      assert forall m :: m in ms ==> m == ms[0] || m in ms[1..];
      assert forall m :: m in ms[1..] ==> m in ms;
    }
  }

  lemma {:induction false} PickedAppend(a: seq<Row>, b: seq<Row>)
    ensures Picked(a + b) == Picked(a) + Picked(b)
    decreases |a|
  {
    if a == [] {
      assert [] + b == b;
    } else {
      assert (a + b)[0] == a[0];
      assert (a + b)[1..] == a[1..] + b;
      PickedAppend(a[1..], b);
    }
  }

  /** The loop of `enqueue_measurment_tasks` over the measurements read with the video: each
      'REQUESTED' one is set to 'QUEUED' and pushed onto the prediction queue. */
  function FanOut(s: System, ms: seq<Row>): (s': System)
    ensures List(s'.keys, PredictorStage.origin) ==
              PushAll(List(s.keys, PredictorStage.origin), RequestedIds(ms))
    ensures forall k :: k != PredictorStage.origin ==> List(s'.keys, k) == List(s.keys, k)
    ensures s'.db.videos == s.db.videos && s'.db.detections == s.db.detections
    ensures |s'.db.measurements| == |s.db.measurements|
    decreases |ms|
  {
    if ms == [] then s
    else
      var m := ms[0];
      var q := List(s.keys, PredictorStage.origin);
      var rest := RequestedIds(ms[1..]);
      if Status(m) == Str("REQUESTED") then
        var s1 := System(LPush(s.keys, PredictorStage.origin, m.id),
                         UpdateMeasurement(s.db, m.id, StatusUpdate("QUEUED")).0);
        assert RequestedIds(ms) == [m.id] + rest;
        assert ([m.id] + rest)[1..] == rest;
        assert PushAll(q, [m.id] + rest) == PushAll([m.id] + q, rest);
        FanOut(s1, ms[1..])
      else
        assert RequestedIds(ms) == rest;
        FanOut(s, ms[1..])
  }

  /** `enqueue_measurment_tasks`: reading a missing video raises AttributeError before any push. */
  function EnqueueMeasurementTasks(s: System, videoId: int): (r: Result<System>)
    ensures r.Err? <==> GetVideo(s.db, videoId).None?
    ensures r.Ok? ==>
              List(r.value.keys, PredictorStage.origin) ==
              PushAll(List(s.keys, PredictorStage.origin), RequestedIds(MeasurementsOf(s.db, videoId)))
    ensures r.Ok? ==> forall k :: k != PredictorStage.origin ==> List(r.value.keys, k) == List(s.keys, k)
  {
    match GetVideo(s.db, videoId)
    case None => Err(AttributeError)
    case Some(_) => Ok(FanOut(s, MeasurementsOf(s.db, videoId)))
  }

  /** `OptimizerOrchestrator.process_task`. A falsy claim (nothing, or id 0) sleeps and returns;
      otherwise the video is optimised, acknowledged, and its measurements fanned out, and any
      exception on the way escalates the WIP entry as a 'video' task. */
  function OptimizerProcessTask(s: System, run: Run): (res: (System, Outcome))
    ensures var c := GetNextTask(s.keys, OptimizerStage);
            (c.item == None || c.item == Some(0)) ==>
              res == (System(c.after, s.db), NoTask(true))
    ensures res.1.Acknowledged? ==>
              && run.Completed?
              && GetNextTask(s.keys, OptimizerStage).item == Some(res.1.id)
              && List(res.0.keys, OptimizerStage.error) == List(s.keys, OptimizerStage.error)
  {
    var c := GetNextTask(s.keys, OptimizerStage);
    match c.item
    case None => (System(c.after, s.db), NoTask(true))
    case Some(id) =>
      if id == 0 then (System(c.after, s.db), NoTask(true))
      else
        match run
        case Raised(db1) => Escalate(System(c.after, db1), OptimizerStage, "video")
        case Completed(db1) =>
          var acked := System(RemoveCompleteTask(c.after, OptimizerStage), db1);
          match EnqueueMeasurementTasks(acked, id)
          case Ok(s2) => (s2, Acknowledged(id))
          case Err(_) => Escalate(acked, OptimizerStage, "video")
  }

  /** `PredictorOrchestrator.process_task`. A falsy claim returns at once without sleeping;
      otherwise the measurement is predicted and acknowledged, or escalated as a 'measurement'
      task when prediction raised. */
  function PredictorProcessTask(s: System, run: Run): (res: (System, Outcome))
    ensures var c := GetNextTask(s.keys, PredictorStage);
            (c.item == None || c.item == Some(0)) ==>
              res == (System(c.after, s.db), NoTask(false))
    ensures res.1.Acknowledged? <==> run.Completed? && GetNextTask(s.keys, PredictorStage).item.Some? &&
                                     GetNextTask(s.keys, PredictorStage).item != Some(0)
    ensures res.1.Acknowledged? ==>
              && res.0.db == run.db
              && res.0.keys == RemoveCompleteTask(GetNextTask(s.keys, PredictorStage).after, PredictorStage)
  {
    var c := GetNextTask(s.keys, PredictorStage);
    match c.item
    case None => (System(c.after, s.db), NoTask(false))
    case Some(id) =>
      if id == 0 then (System(c.after, s.db), NoTask(false))
      else
        match run
        case Raised(db1) => Escalate(System(c.after, db1), PredictorStage, "measurement")
        case Completed(db1) => (System(RemoveCompleteTask(c.after, PredictorStage), db1), Acknowledged(id))
  }

  /** A measurement row with its status set to 'QUEUED'. */
  function QueuedRow(r: Row): Row {
    Row(r.id, Merge(r.fields, StatusUpdate("QUEUED")))
  }

  /** The fan-out sets exactly the measurements it pushes to 'QUEUED' and leaves every other row
      as it was. */
  lemma {:induction false} FanOutStatuses(s: System, ms: seq<Row>)
    requires UniqueIds(s.db.measurements)
    ensures var t := s.db.measurements;
            var t' := FanOut(s, ms).db.measurements;
            && |t'| == |t| && UniqueIds(t')
            && forall j :: 0 <= j < |t| ==>
                 t'[j] == if t[j].id in RequestedIds(ms) then QueuedRow(t[j]) else t[j]
    decreases |ms|
  {
    if ms != [] {
      var m := ms[0];
      var t := s.db.measurements;
      var rest := RequestedIds(ms[1..]);
      if Status(m) == Str("REQUESTED") {
        var s1 := System(LPush(s.keys, PredictorStage.origin, m.id),
                         UpdateMeasurement(s.db, m.id, StatusUpdate("QUEUED")).0);
        assert RequestedIds(ms) == [m.id] + rest;
        UpdateUnique(t, m.id, StatusUpdate("QUEUED"));
        var t1 := s1.db.measurements;
        assert t1 == UpdateItem(t, m.id, StatusUpdate("QUEUED")).table;
        FanOutStatuses(s1, ms[1..]);
        var t' := FanOut(s, ms).db.measurements;
        assert t' == FanOut(s1, ms[1..]).db.measurements;
        forall j | 0 <= j < |t|
          ensures t'[j] == if t[j].id in RequestedIds(ms) then QueuedRow(t[j]) else t[j]
        {
          if t[j].id == m.id {
            MergeIdempotent(t[j].fields, StatusUpdate("QUEUED"));
          }
        }
      } else {
        assert RequestedIds(ms) == rest;
        FanOutStatuses(s, ms[1..]);
      }
    }
  }

  /** With nothing 'REQUESTED', the fan-out changes nothing. */
  lemma {:induction false} FanOutNothingRequested(s: System, ms: seq<Row>)
    requires RequestedIds(ms) == []
    ensures FanOut(s, ms) == s
    decreases |ms|
  {
    if ms != [] {
      assert Status(ms[0]) != Str("REQUESTED");
      assert RequestedIds(ms) == RequestedIds(ms[1..]);
      FanOutNothingRequested(s, ms[1..]);
    }
  }

  lemma QueuedRowIsQueued(r: Row)
    ensures Status(QueuedRow(r)) == Str("QUEUED")
    ensures QueuedRow(r).id == r.id
    ensures Field(QueuedRow(r).fields, "video_id") == Field(r.fields, "video_id")
  {
    assert Applied(StatusUpdate("QUEUED"), "status");
    assert !Applied(StatusUpdate("QUEUED"), "video_id");
  }

  lemma {:induction false} NoneRequested(ms: seq<Row>)
    requires forall r :: r in ms ==> Status(r) != Str("REQUESTED")
    ensures RequestedIds(ms) == []
    decreases |ms|
  {
    if ms != [] {
      assert ms[0] in ms;
      assert forall r :: r in ms[1..] ==> r in ms;
      NoneRequested(ms[1..]);
    }
  }

  /** After a fan-out for a video, none of that video's measurements is 'REQUESTED'. */
  lemma NothingRequestedAfterFanOut(s: System, videoId: int)
    requires UniqueIds(s.db.measurements)
    ensures var s1 := FanOut(s, MeasurementsOf(s.db, videoId));
            forall r :: r in MeasurementsOf(s1.db, videoId) ==> Status(r) != Str("REQUESTED")
  {
    var ms := MeasurementsOf(s.db, videoId);
    var s1 := FanOut(s, ms);
    FanOutStatuses(s, ms);
    var t := s.db.measurements;
    var t' := s1.db.measurements;
    forall r | r in MeasurementsOf(s1.db, videoId)
      ensures Status(r) != Str("REQUESTED")
    {
      var j :| 0 <= j < |t'| && t'[j] == r;
      if t[j].id in RequestedIds(ms) {
        QueuedRowIsQueued(t[j]);
      } else {
        assert r == t[j];
        assert r in ms;
      }
    }
  }

  /** The fan-out is idempotent under redelivery: running it again for the same video pushes
      nothing and changes nothing, because it guards on the stored status. */
  lemma SecondFanOutIsNoOp(s: System, videoId: int)
    requires UniqueIds(s.db.measurements)
    requires EnqueueMeasurementTasks(s, videoId).Ok?
    ensures var s1 := EnqueueMeasurementTasks(s, videoId).value;
            EnqueueMeasurementTasks(s1, videoId) == Ok(s1)
  {
    var s1 := FanOut(s, MeasurementsOf(s.db, videoId));
    NothingRequestedAfterFanOut(s, videoId);
    NoneRequested(MeasurementsOf(s1.db, videoId));
    FanOutNothingRequested(s1, MeasurementsOf(s1.db, videoId));
    assert GetVideo(s1.db, videoId) == GetVideo(s.db, videoId);
  }

  /** An id 0 at the tail of the origin list is moved into WIP and then treated as "no task":
      it is neither processed, acknowledged nor escalated, and stays in WIP. */
  lemma ZeroIdIsStranded(s: System, run: Run)
    requires List(s.keys, OptimizerStage.origin) != [] && Last(List(s.keys, OptimizerStage.origin)) == 0
    ensures var res := OptimizerProcessTask(s, run);
            && res.1 == NoTask(true) && res.0.db == s.db
            && List(res.0.keys, OptimizerStage.wip) == [0] + List(s.keys, OptimizerStage.wip)
            && List(res.0.keys, OptimizerStage.error) == List(s.keys, OptimizerStage.error)
  {
  }

  /** A failed optimisation claimed into an empty WIP list is escalated as that video: it moves
      to VIDEO_ERROR, WIP is empty again, the video (if stored) has status ERROR, and nothing is
      acknowledged or fanned out. */
  lemma FailedOptimisationEscalatesVideo(s: System, db1: Db)
    requires List(s.keys, OptimizerStage.origin) != [] && List(s.keys, OptimizerStage.wip) == []
    requires Last(List(s.keys, OptimizerStage.origin)) != 0
    ensures var id := Last(List(s.keys, OptimizerStage.origin));
            var res := OptimizerProcessTask(s, Raised(db1));
            && res.1 == Escalated(id)
            && List(res.0.keys, OptimizerStage.wip) == []
            && List(res.0.keys, OptimizerStage.error) == [id] + List(s.keys, OptimizerStage.error)
            && List(res.0.keys, PredictorStage.origin) == List(s.keys, PredictorStage.origin)
            && (GetVideo(db1, id).Some? ==> Status(GetVideo(res.0.db, id).value) == Str("ERROR"))
  {
    var c := GetNextTask(s.keys, OptimizerStage);
    var e := SendTaskToError(c.after, OptimizerStage, "video");
    SoleClaimEscalated(s.keys, OptimizerStage, "video");
    RaisedOptimisationEscalates(s, db1);
    var res := ApplyEscalation(System(c.after, db1), e);
    assert res == (System(e.after, UpdateVideo(db1, e.id, StatusUpdate("ERROR")).0), Escalated(e.id));
    StatusSet(db1, e.id, "ERROR");
    StagesApart();
  }

  /** A raised optimisation of a truthy claim goes to the except branch as a 'video' task. */
  lemma RaisedOptimisationEscalates(s: System, db1: Db)
    requires GetNextTask(s.keys, OptimizerStage).item.Some?
    requires GetNextTask(s.keys, OptimizerStage).item != Some(0)
    ensures var c := GetNextTask(s.keys, OptimizerStage);
            OptimizerProcessTask(s, Raised(db1)) == Escalate(System(c.after, db1), OptimizerStage, "video")
  {
  }

  /** The prediction queue is none of the optimiser's lists: their names differ at the first
      character. */
  lemma StagesApart()
    ensures PredictorStage.origin != OptimizerStage.origin
    ensures PredictorStage.origin != OptimizerStage.wip
    ensures PredictorStage.origin != OptimizerStage.error
  {
    assert PredictorStage.origin[0] == 'M';
    assert OptimizerStage.origin[0] == 'V' && OptimizerStage.wip[0] == 'V' && OptimizerStage.error[0] == 'V';
  }

  /** A failed prediction claimed into an empty WIP list is escalated as that measurement. */
  lemma FailedPredictionEscalatesMeasurement(s: System, db1: Db)
    requires List(s.keys, PredictorStage.origin) != [] && List(s.keys, PredictorStage.wip) == []
    requires Last(List(s.keys, PredictorStage.origin)) != 0
    ensures var id := Last(List(s.keys, PredictorStage.origin));
            var res := PredictorProcessTask(s, Raised(db1));
            && res.1 == Escalated(id)
            && List(res.0.keys, PredictorStage.wip) == []
            && List(res.0.keys, PredictorStage.error) == [id] + List(s.keys, PredictorStage.error)
            && (GetMeasurement(db1, id).Some? ==> Status(GetMeasurement(res.0.db, id).value) == Str("ERROR"))
  {
    var c := GetNextTask(s.keys, PredictorStage);
    var e := SendTaskToError(c.after, PredictorStage, "measurement");
    SoleClaimEscalated(s.keys, PredictorStage, "measurement");
    RaisedPredictionEscalates(s, db1);
    var res := ApplyEscalation(System(c.after, db1), e);
    assert res == (System(e.after, UpdateMeasurement(db1, e.id, StatusUpdate("ERROR")).0), Escalated(e.id));
    StatusSet(db1, e.id, "ERROR");
  }

  /** A raised prediction of a truthy claim goes to the except branch as a 'measurement' task. */
  lemma RaisedPredictionEscalates(s: System, db1: Db)
    requires GetNextTask(s.keys, PredictorStage).item.Some?
    requires GetNextTask(s.keys, PredictorStage).item != Some(0)
    ensures var c := GetNextTask(s.keys, PredictorStage);
            PredictorProcessTask(s, Raised(db1)) == Escalate(System(c.after, db1), PredictorStage, "measurement")
  {
  }

  /** Claiming into an empty WIP list and then escalating a known task type moves the claimed
      id, and only it, from the origin's tail to the head of the error list. */
  lemma SoleClaimEscalated(r: Keyspace, st: Stage, taskType: string)
    requires Distinct(st) && TaskKind(taskType).Some?
    requires List(r, st.origin) != [] && List(r, st.wip) == []
    ensures var c := GetNextTask(r, st);
            var e := SendTaskToError(c.after, st, taskType);
            && e.MarkError? && Some(e.kind) == TaskKind(taskType)
            && e.id == Last(List(r, st.origin))
            && List(e.after, st.wip) == []
            && List(e.after, st.error) == [e.id] + List(r, st.error)
            && forall k :: k != st.origin && k != st.wip && k != st.error ==> List(e.after, k) == List(r, k)
  {
    var id := Last(List(r, st.origin));
    var c := GetNextTask(r, st);
    assert List(c.after, st.wip) == [id];
    var e := SendTaskToError(c.after, st, taskType);
    assert List(e.after, st.wip) + [e.id] == [id];
  }

  /** A status update with a non-empty status is written on a stored row of either table. */
  lemma StatusSet(db: Db, id: int, status: string)
    requires status != ""
    ensures GetVideo(db, id).Some? ==>
              Status(GetVideo(UpdateVideo(db, id, StatusUpdate(status)).0, id).value) == Str(status)
    ensures GetMeasurement(db, id).Some? ==>
              Status(GetMeasurement(UpdateMeasurement(db, id, StatusUpdate(status)).0, id).value) == Str(status)
  {
    assert Applied(StatusUpdate(status), "status");
  }

  /** A successful optimisation is acknowledged and then fans out: the video's 'REQUESTED'
      measurements are pushed in list order onto MEASUREMENTS_TODO, and WIP is as before. */
  lemma SuccessfulOptimisationFansOut(s: System, db1: Db)
    requires List(s.keys, OptimizerStage.origin) != []
    requires Last(List(s.keys, OptimizerStage.origin)) != 0
    requires GetVideo(db1, Last(List(s.keys, OptimizerStage.origin))).Some?
    ensures var id := Last(List(s.keys, OptimizerStage.origin));
            var res := OptimizerProcessTask(s, Completed(db1));
            && res.1 == Acknowledged(id)
            && List(res.0.keys, OptimizerStage.wip) == List(s.keys, OptimizerStage.wip)
            && List(res.0.keys, PredictorStage.origin) ==
               PushAll(List(s.keys, PredictorStage.origin), RequestedIds(MeasurementsOf(db1, id)))
  {
    var c := GetNextTask(s.keys, OptimizerStage);
    assert List(c.after, OptimizerStage.wip) == [c.item.value] + List(s.keys, OptimizerStage.wip);
  }

  /** The acknowledgement comes before the fan-out: when the fan-out raises (the video row is
      gone) the claimed id has already left WIP, so with WIP otherwise empty the escalation
      itself raises and the exception leaves `process_task`. */
  lemma FanOutFailureAfterAckCrashes(s: System, db1: Db)
    requires List(s.keys, OptimizerStage.origin) != [] && List(s.keys, OptimizerStage.wip) == []
    requires Last(List(s.keys, OptimizerStage.origin)) != 0
    requires GetVideo(db1, Last(List(s.keys, OptimizerStage.origin))).None?
    ensures OptimizerProcessTask(s, Completed(db1)).1.Crashed?
  {
    var c := GetNextTask(s.keys, OptimizerStage);
    assert List(c.after, OptimizerStage.wip) == [c.item.value];
  }

}

=== FILE: planner.dfy ===
/** The normalisation planner of the video optimiser: from a video's size and frame rate it picks
    one of four processors and their arguments. Float arithmetic is exact here (`real`). */
module Planner {
  import opened Wrappers

  /** What the decoder reports about a video (supervision's VideoInfo). */
  datatype VideoInfo = VideoInfo(width: nat, height: nat, fps: nat, totalFrames: nat)

  /** The deployment's limits: MAX_FPS and MAX_BASE_DIMENSION (the largest short side). */
  datatype Limits = Limits(maxFps: nat, maxBaseDimension: nat)

  /** The four processor methods of the optimiser. */
  datatype Processor = CopyVideo | RescaleVideo | TrimVideoFps | TrimVideoFpsAndRescale

  /** A processor with the keyword arguments it is called with. */
  datatype Plan = Plan(processor: Processor,
                       info: VideoInfo,
                       targetDimensions: Option<(nat, nat)>,
                       fpsFactor: Option<real>)

  function Min(a: nat, b: nat): nat {
    if a <= b then a else b
  }

  /** The video's short side exceeds the limit. */
  predicate IsBigger(v: VideoInfo, lim: Limits) {
    Min(v.width, v.height) > lim.maxBaseDimension
  }

  /** The video's frame rate exceeds the limit. */
  predicate HigherFps(v: VideoInfo, lim: Limits) {
    v.fps > lim.maxFps
  }

  /** `get_target_dimensions`: scale both sides by MAX_BASE_DIMENSION / short side and truncate. */
  function TargetDimensions(v: VideoInfo, lim: Limits): (d: (nat, nat))
    requires IsBigger(v, lim)
  {
    var m := Min(v.width, v.height);
    (v.width * lim.maxBaseDimension / m, v.height * lim.maxBaseDimension / m)
  }

  /** `get_processor_and_args`. */
  function GetProcessorAndArgs(v: VideoInfo, lim: Limits): (p: Plan)
    ensures p.processor == CopyVideo <==> !IsBigger(v, lim) && !HigherFps(v, lim)
    ensures p.processor == RescaleVideo <==> IsBigger(v, lim) && !HigherFps(v, lim)
    ensures p.processor == TrimVideoFps <==> !IsBigger(v, lim) && HigherFps(v, lim)
    ensures p.processor == TrimVideoFpsAndRescale <==> IsBigger(v, lim) && HigherFps(v, lim)
    ensures p.targetDimensions.Some? <==> IsBigger(v, lim)
    ensures p.fpsFactor.Some? <==> HigherFps(v, lim)
    ensures p.info.totalFrames == v.totalFrames
    ensures p.processor == CopyVideo ==> p.info == v
    ensures HigherFps(v, lim) ==>
              && 0.0 <= p.fpsFactor.value < 1.0
              && (lim.maxFps > 0 ==> 0.0 < p.fpsFactor.value)
              && p.fpsFactor.value * v.fps as real == lim.maxFps as real
              && p.info.fps == lim.maxFps
    ensures !HigherFps(v, lim) ==> p.info.fps == v.fps
    ensures IsBigger(v, lim) ==>
              && Min(p.info.width, p.info.height) == lim.maxBaseDimension
              && p.targetDimensions == Some((p.info.width, p.info.height))
    ensures !IsBigger(v, lim) ==> p.info.width == v.width && p.info.height == v.height
  {
    var bigger := IsBigger(v, lim);
    var higher := HigherFps(v, lim);
    if bigger && higher then
      var factor := lim.maxFps as real / v.fps as real;
      FpsFactorBounds(lim.maxFps, v.fps);
      var d := TargetDimensions(v, lim);
      ShortSideIsLimit(v, lim);
      Plan(TrimVideoFpsAndRescale, VideoInfo(d.0, d.1, lim.maxFps, v.totalFrames), Some(d), Some(factor))
    else if bigger then
      var d := TargetDimensions(v, lim);
      ShortSideIsLimit(v, lim);
      Plan(RescaleVideo, VideoInfo(d.0, d.1, v.fps, v.totalFrames), Some(d), None)
    else if higher then
      var factor := lim.maxFps as real / v.fps as real;
      FpsFactorBounds(lim.maxFps, v.fps);
      Plan(TrimVideoFps, VideoInfo(v.width, v.height, lim.maxFps, v.totalFrames), None, Some(factor))
    else
      Plan(CopyVideo, v, None, None)
  }

  /** The frame-rate factor MAX_FPS / fps of a faster video lies in [0, 1), and is positive when
      MAX_FPS is. */
  lemma FpsFactorBounds(maxFps: nat, fps: nat)
    requires maxFps < fps
    ensures var f := maxFps as real / fps as real;
            && 0.0 <= f < 1.0
            && (maxFps > 0 ==> 0.0 < f)
            && f * fps as real == maxFps as real
  {
  }

  /** The ratio `optimize` stores: `kwargs.get('fps_factor', 1)`. */
  function StoredFpsRatio(p: Plan): real {
    match p.fpsFactor
    case None => 1.0
    case Some(f) => f
  }

  /** A processor without frame-rate trimming stores the ratio 1; a trimming one stores the
      factor, which is below 1. */
  lemma StoredRatioOfPlan(v: VideoInfo, lim: Limits)
    ensures var p := GetProcessorAndArgs(v, lim);
            && (!HigherFps(v, lim) ==> StoredFpsRatio(p) == 1.0)
            && (HigherFps(v, lim) ==> StoredFpsRatio(p) < 1.0)
  {
  }

  lemma DivBounds(a: nat, b: nat)
    requires b > 0
    ensures (a / b) * b <= a < (a / b + 1) * b
  {
  }

  /** Exact rescaling: the short side becomes exactly MAX_BASE_DIMENSION, neither side grows,
      and each side is the exact scaled length truncated (aspect kept to within one pixel). */
  lemma ShortSideIsLimit(v: VideoInfo, lim: Limits)
    requires IsBigger(v, lim)
    ensures var d := TargetDimensions(v, lim);
            var m := Min(v.width, v.height);
            && Min(d.0, d.1) == lim.maxBaseDimension
            && d.0 <= v.width && d.1 <= v.height
            && d.0 * m <= v.width * lim.maxBaseDimension < (d.0 + 1) * m
            && d.1 * m <= v.height * lim.maxBaseDimension < (d.1 + 1) * m
  {
    var d := TargetDimensions(v, lim);
    var m := Min(v.width, v.height);
    var lm := lim.maxBaseDimension;
    DivBounds(v.width * lm, m);
    DivBounds(v.height * lm, m);
    ScaledSide(m, m, lm);
    ScaledSide(v.width, m, lm);
    ScaledSide(v.height, m, lm);
  }

  /** Scaling a side `s >= m` by `lm / m` with `lm < m` gives at least `lm` and at most `s`,
      and exactly `lm` for the short side itself. */
  lemma ScaledSide(s: nat, m: nat, lm: nat)
    requires lm < m <= s
    ensures lm <= s * lm / m <= s
    ensures s == m ==> s * lm / m == lm
  {
    ScaledAtLeastLimit(s, m, lm);
    ScaledAtMostSide(s, m, lm);
  }

  lemma ScaledAtLeastLimit(s: nat, m: nat, lm: nat)
    requires lm < m <= s
    ensures lm <= s * lm / m
    ensures s == m ==> s * lm / m == lm
  {
    MulMono(m, s, lm);
    DivMono(m * lm, s * lm, m);
    MulDivCancel(lm, m);
    assert m * lm == lm * m;
  }

  lemma ScaledAtMostSide(s: nat, m: nat, lm: nat)
    requires lm < m <= s
    ensures s * lm / m <= s
  {
    MulMono(lm, m, s);
    assert lm * s == s * lm && m * s == s * m;
    DivMono(s * lm, s * m, m);
    MulDivCancel(s, m);
  }

  lemma MulDivCancel(x: nat, m: nat)
    requires m > 0
    ensures x * m / m == x
  {
    DivBounds(x * m, m);
    MulCancel(x * m / m, x, m);
  }

  lemma MulMono(a: nat, b: nat, c: nat)
    requires a <= b
    ensures a * c <= b * c
  {
  }

  lemma DivMono(a: nat, b: nat, m: nat)
    requires a <= b && m > 0
    ensures a / m <= b / m
  {
    DivBounds(a, m);
    DivBounds(b, m);
    if a / m > b / m {
      MulMono(b / m + 1, a / m, m);
    }
  }

  lemma MulCancel(q: nat, x: nat, m: nat)
    requires m > 0
    requires q * m <= x * m < (q + 1) * m
    ensures q == x
  {
    if q < x {
      MulMono(q + 1, x, m);
    } else if q > x {
      MulMono(x + 1, q, m);
    }
  }

  /** The worked example: 1920x1080 at 30 fps with a 360 px short side and 15 fps limit is
      trimmed to half the frame rate and rescaled to 640x360. */
  lemma FullHdExample()
    ensures var p := GetProcessorAndArgs(VideoInfo(1920, 1080, 30, 900), Limits(15, 360));
            && p.processor == TrimVideoFpsAndRescale
            && p.targetDimensions == Some((640, 360))
            && p.fpsFactor == Some(0.5)
            && p.info == VideoInfo(640, 360, 15, 900)
  {
  }

  /** The S3 location every uploaded video must live under. */
  const S3Prefix: string := "https://s3.amazonaws.com/transit-ventures-test/videos"

  /** The argument of `_validate_video_path`: a Python string or some other object. */
  datatype PathArg = StrPath(path: string) | NonStrPath

  /** `_validate_video_path`: returns True or raises; it never returns False. */
  function ValidateVideoPath(p: PathArg): (r: Result<bool>)
    ensures r.Ok? ==> r.value
    ensures r.Ok? <==> p.StrPath? && S3Prefix <= p.path
    ensures r.Err? && p.NonStrPath? ==> r.failure.TypeError?
    ensures r.Err? && p.StrPath? ==> r.failure.ValueError?
  {
    match p
    case NonStrPath => Err(TypeError("Video path should be a string"))
    case StrPath(s) =>
      if S3Prefix <= s then Ok(true) else Err(ValueError("Returned string is not a valid path"))
  }

  /** The metadata update `get_video_metadata` builds. */
  datatype VideoMetadata = VideoMetadata(status: string, info: VideoInfo, duration: nat)

  /** `get_video_metadata`: probe the video (None when the probe itself raised) and compute its
      duration in whole seconds. Every failure, including a zero frame rate, becomes
      RuntimeError. The optimiser tags the update 'OPTIMIZING'; the older processor's schema
      defaults it to 'In Progress'. */
  function GetVideoMetadata(probe: Option<VideoInfo>, status: string): (r: Result<VideoMetadata>)
    ensures r.Err? <==> probe.None? || probe.value.fps == 0
    ensures r.Err? ==> r.failure == RuntimeError("Video metadata could not be extracted")
    ensures r.Ok? ==>
              && r.value.info == probe.value
              && r.value.status == status
              && r.value.duration * probe.value.fps <= probe.value.totalFrames
              && probe.value.totalFrames < (r.value.duration + 1) * probe.value.fps
  {
    match probe
    case None => Err(RuntimeError("Video metadata could not be extracted"))
    case Some(v) =>
      if v.fps == 0 then Err(RuntimeError("Video metadata could not be extracted"))
      else
        DivBounds(v.totalFrames, v.fps);
        Ok(VideoMetadata(status, v, v.totalFrames / v.fps))
  }
}

=== FILE: pynum.dfy ===
/** Python's numeric conversions that the model needs, on exact reals. */
module PyNum {
  /** Python's `int()` of a float: truncation toward zero. */
  function Trunc(x: real): (t: int)
    ensures x >= 0.0 ==> t as real <= x < t as real + 1.0
    ensures x < 0.0 ==> x <= t as real <= 0.0 && t as real < x + 1.0
  {
    if x >= 0.0 then x.Floor else -((-x).Floor)
  }
}

=== FILE: records.dfy ===
/** The generic record store behind every table: rows with an integer primary key and dynamically
    typed fields, the truthiness-filtered field merge of an update, and first-match lookups. */
module Records {
  import opened Wrappers

  /** A Python field value. Floats are exact reals here. */
  datatype Value =
    | Null
    | Bool(b: bool)
    | Int(i: int)
    | Real(x: real)
    | Str(s: string)
    | Time(t: int)

  /** Python truthiness: None, False, 0, 0.0 and "" are falsy; datetimes are always truthy. */
  predicate Truthy(v: Value) {
    match v
    case Null => false
    case Bool(b) => b
    case Int(i) => i != 0
    case Real(x) => x != 0.0
    case Str(s) => s != ""
    case Time(_) => true
  }

  /** The fields of a row, or the `.dict()` of an update schema. */
  type Fields = map<string, Value>

  /** A stored row: its primary key and its other columns. */
  datatype Row = Row(id: int, fields: Fields)

  /** A table in store order. */
  type Table = seq<Row>

  /** Reading a column that was never set gives None. */
  function Field(f: Fields, k: string): Value {
    if k in f then f[k] else Null
  }

  /** The keys of an update whose value `update_item` applies. */
  predicate Applied(upd: Fields, k: string) {
    k in upd && Truthy(upd[k])
  }

  /** The loop of `update_item`: every truthy value of the update is written; falsy values
      (None, False, 0, 0.0, "") never overwrite. */
  function Merge(f: Fields, upd: Fields): (g: Fields)
    ensures forall k :: Applied(upd, k) ==> Field(g, k) == upd[k]
    ensures forall k :: !Applied(upd, k) ==> Field(g, k) == Field(f, k)
    ensures forall k :: k in g <==> k in f || Applied(upd, k)
  {
    map k | k in f.Keys + upd.Keys && (k in f || Applied(upd, k)) ::
      if Applied(upd, k) then upd[k] else f[k]
  }

  /** Applying the same update twice gives the record that applying it once gives. */
  lemma MergeIdempotent(f: Fields, upd: Fields)
    ensures Merge(Merge(f, upd), upd) == Merge(f, upd)
  {
    var g := Merge(f, upd);
    var h := Merge(g, upd);
    assert forall k :: k in h <==> k in g;
    forall k | k in h
      ensures h[k] == g[k]
    {
      assert Field(h, k) == Field(g, k);
    }
  }

  /** An update carrying only falsy values changes nothing. */
  lemma FalsyUpdateIsNoOp(f: Fields, upd: Fields)
    requires forall k :: k in upd ==> !Truthy(upd[k])
    ensures Merge(f, upd) == f
  {
    var g := Merge(f, upd);
    forall k | k in g
      ensures g[k] == f[k]
    {
      assert Field(g, k) == Field(f, k);
    }
  }

  /** `filter_by(**conds)`: the row has every given column value. */
  predicate Matches(r: Row, conds: Fields) {
    forall k :: k in conds ==> Field(r.fields, k) == conds[k]
  }

  /** Position of the first row with the given key, at or after `from`. */
  function FirstWithId(t: Table, id: int, from: nat): (i: Option<nat>)
    requires from <= |t|
    ensures i.Some? ==> from <= i.value < |t| && t[i.value].id == id
    ensures i.Some? ==> forall j :: from <= j < i.value ==> t[j].id != id
    ensures i.None? ==> forall j :: from <= j < |t| ==> t[j].id != id
    decreases |t| - from
  {
    if from == |t| then None
    else if t[from].id == id then Some(from)
    else FirstWithId(t, id, from + 1)
  }

  /** Position of the first row matching the conditions, at or after `from`. */
  function FirstMatching(t: Table, conds: Fields, from: nat): (i: Option<nat>)
    requires from <= |t|
    ensures i.Some? ==> from <= i.value < |t| && Matches(t[i.value], conds)
    ensures i.Some? ==> forall j :: from <= j < i.value ==> !Matches(t[j], conds)
    ensures i.None? ==> forall j :: from <= j < |t| ==> !Matches(t[j], conds)
    decreases |t| - from
  {
    if from == |t| then None
    else if Matches(t[from], conds) then Some(from)
    else FirstMatching(t, conds, from + 1)
  }

  /** `get_item`: the first row with the key, or None. */
  function GetItem(t: Table, id: int): (r: Option<Row>)
    ensures r.None? <==> forall j :: 0 <= j < |t| ==> t[j].id != id
    ensures r.Some? ==> r.value in t && r.value.id == id
  {
    match FirstWithId(t, id, 0)
    case None => None
    case Some(i) => Some(t[i])
  }

  /** `get_item_by_field`: the first row with the given column values, or None. */
  function GetItemByField(t: Table, conds: Fields): (r: Option<Row>)
    ensures r.None? <==> forall j :: 0 <= j < |t| ==> !Matches(t[j], conds)
    ensures r.Some? ==> exists i :: 0 <= i < |t| && t[i] == r.value && Matches(t[i], conds) &&
                          forall j :: 0 <= j < i ==> !Matches(t[j], conds)
  {
    match FirstMatching(t, conds, 0)
    case None => None
    case Some(i) => Some(t[i])
  }

  /** `get_items`: every row in store order, but None rather than an empty list. */
  function GetItems(t: Table): (r: Option<Table>)
    ensures r.None? <==> t == []
    ensures r.Some? ==> r.value == t
  {
    if t == [] then None else Some(t)
  }

  /** `create_item`: the new row is stored after every row already there. */
  function CreateItem(t: Table, r: Row): (t': Table)
    ensures |t'| == |t| + 1
    ensures forall j :: 0 <= j < |t| ==> t'[j] == t[j]
    ensures t'[|t|] == r
  {
    t + [r]
  }

  /** After a create, a lookup of a stored key finds what it found before, a lookup of the new
      row's key finds it when that key was fresh, and every other key stays missing; a fresh key
      keeps the keys unique. */
  lemma CreateThenGet(t: Table, r: Row, x: int)
    ensures GetItem(t, x).Some? ==> GetItem(CreateItem(t, r), x) == GetItem(t, x)
    ensures GetItem(t, x).None? ==> GetItem(CreateItem(t, r), x) == if r.id == x then Some(r) else None
    ensures GetItem(t, r.id).None? && UniqueIds(t) ==> UniqueIds(CreateItem(t, r))
  {
    var t' := CreateItem(t, r);
    match FirstWithId(t, x, 0)
    case Some(i) =>
      assert t'[i] == t[i];
      var f := FirstWithId(t', x, 0);
      assert f.Some?;
      assert f.value == i;
    case None =>
      if r.id == x {
        var f := FirstWithId(t', x, 0);
        assert f.Some?;
        assert f.value == |t|;
      } else {
        assert forall j :: 0 <= j < |t'| ==> t'[j].id != x;
      }
  }

  /** The table after `update_item`, and the row it returned. */
  datatype Updated = Updated(table: Table, item: Option<Row>)

  /** `update_item`: merge the update into the first row with the key; a missing key returns
      None and changes nothing. */
  function UpdateItem(t: Table, id: int, upd: Fields): (u: Updated)
    ensures u.item.None? <==> forall j :: 0 <= j < |t| ==> t[j].id != id
    ensures u.item.None? ==> u.table == t
    ensures u.item.Some? ==>
              exists i :: 0 <= i < |t| && t[i].id == id && (forall j :: 0 <= j < i ==> t[j].id != id) &&
                          u.table == t[i := u.item.value] && u.item.value == Row(id, Merge(t[i].fields, upd))
  {
    match FirstWithId(t, id, 0)
    case None => Updated(t, None)
    case Some(i) =>
      var r := Row(id, Merge(t[i].fields, upd));
      Updated(t[i := r], Some(r))
  }

  /** `delete_item`: drop the first row with the key; a missing key is a no-op. */
  function DeleteItem(t: Table, id: int): (t': Table)
    ensures (forall j :: 0 <= j < |t| ==> t[j].id != id) ==> t' == t
    ensures (exists j :: 0 <= j < |t| && t[j].id == id) ==>
              exists i :: 0 <= i < |t| && t[i].id == id && (forall j :: 0 <= j < i ==> t[j].id != id) &&
                          t' == t[..i] + t[i + 1..]
  {
    match FirstWithId(t, id, 0)
    case None => t
    case Some(i) => t[..i] + t[i + 1..]
  }

  /** With unique keys, deleting removes the row with the key and keeps every other row. */
  lemma DeleteUnique(t: Table, id: int)
    requires UniqueIds(t)
    ensures UniqueIds(DeleteItem(t, id))
    ensures forall r :: r in DeleteItem(t, id) <==> r in t && r.id != id
  {
    if exists j :: 0 <= j < |t| && t[j].id == id {
      var i :| 0 <= i < |t| && t[i].id == id && DeleteItem(t, id) == t[..i] + t[i + 1..];
      RemoveAtUnique(t, i);
    }
  }

  /** Dropping position `i` of a key-unique table drops exactly the row with that key. */
  lemma RemoveAtUnique(t: Table, i: nat)
    requires UniqueIds(t) && i < |t|
    ensures var t' := t[..i] + t[i + 1..];
            && UniqueIds(t')
            && forall r :: r in t' <==> r in t && r.id != t[i].id
  {
    var t' := t[..i] + t[i + 1..];
    assert forall a :: 0 <= a < |t'| ==> t'[a] == t[if a < i then a else a + 1];
    forall r | r in t'
      ensures r in t && r.id != t[i].id
    {
      var a :| 0 <= a < |t'| && t'[a] == r;
      var a' := if a < i then a else a + 1;
      assert t[a'] == r && a' != i;
    }
    forall r | r in t && r.id != t[i].id
      ensures r in t'
    {
      var k :| 0 <= k < |t| && t[k] == r;
      assert k != i;
      var a := if k < i then k else k - 1;
      assert t'[a] == r;
    }
  }

  /** `get_item` returns the first row with the key. */
  lemma GetItemIsFirst(t: Table, id: int)
    ensures GetItem(t, id).Some? ==>
              exists i :: 0 <= i < |t| && t[i] == GetItem(t, id).value && forall j :: 0 <= j < i ==> t[j].id != id
  {
  }

  /** No two rows share a primary key. */
  predicate UniqueIds(t: Table) {
    forall i, j :: 0 <= i < j < |t| ==> t[i].id != t[j].id
  }

  /** With unique keys, an update rewrites exactly the row with the key and keeps every key. */
  lemma UpdateUnique(t: Table, id: int, upd: Fields)
    requires UniqueIds(t)
    ensures var t' := UpdateItem(t, id, upd).table;
            && |t'| == |t| && UniqueIds(t')
            && forall j :: 0 <= j < |t| ==>
                 t'[j] == if t[j].id == id then Row(id, Merge(t[j].fields, upd)) else t[j]
  {
  }
}

=== FILE: redis_lists.dfy ===
/** The three Redis list commands the pipeline uses, over a keyspace of integer lists.
    Index 0 of a list is its head (the left end Redis pushes onto with LPUSH). */
module RedisLists {
  import opened Wrappers

  /** The Redis keyspace: every key names a list of task ids. */
  type Keyspace = map<string, seq<int>>

  /** A key that holds nothing reads as the empty list, as in Redis. */
  function List(r: Keyspace, key: string): seq<int> {
    if key in r then r[key] else []
  }

  /** What a popping command returned, and the keyspace after it. */
  datatype Popped = Popped(item: Option<int>, after: Keyspace)

  function Last(q: seq<int>): int
    requires q != []
  {
    q[|q| - 1]
  }

  /** LPUSH key x: insert `x` at the head of the list. */
  function LPush(r: Keyspace, key: string, x: int): (r': Keyspace)
    ensures List(r', key) == [x] + List(r, key)
    ensures forall k :: k != key ==> List(r', k) == List(r, k)
  {
    r[key := [x] + List(r, key)]
  }

  /** LPOP key: remove and return the head of the list, or nothing when it is empty. */
  function LPop(r: Keyspace, key: string): (p: Popped)
    ensures List(r, key) == [] <==> p.item == None
    ensures List(r, key) == [] ==> p.after == r
    ensures List(r, key) != [] ==>
              p.item == Some(List(r, key)[0]) && [List(r, key)[0]] + List(p.after, key) == List(r, key)
    ensures forall k :: k != key ==> List(p.after, k) == List(r, k)
  {
    var q := List(r, key);
    if q == [] then Popped(None, r) else Popped(Some(q[0]), r[key := q[1..]])
  }

  /** RPOPLPUSH src dst: atomically remove the tail of `src` and insert it at the head of `dst`. */
  function RPopLPush(r: Keyspace, src: string, dst: string): (p: Popped)
    ensures List(r, src) == [] <==> p.item == None
    ensures List(r, src) == [] ==> p.after == r
    ensures List(r, src) != [] ==> p.item == Some(Last(List(r, src)))
    ensures List(r, src) != [] && src != dst ==>
              && List(p.after, src) + [Last(List(r, src))] == List(r, src)
              && List(p.after, dst) == [Last(List(r, src))] + List(r, dst)
    ensures List(r, src) != [] && src == dst ==>
              List(p.after, src) == [Last(List(r, src))] + List(r, src)[..|List(r, src)| - 1]
    ensures forall k :: k != src && k != dst ==> List(p.after, k) == List(r, k)
  {
    var q := List(r, src);
    if q == [] then Popped(None, r)
    else
      var x := Last(q);
      var r1 := r[src := q[..|q| - 1]];
      Popped(Some(x), r1[dst := [x] + List(r1, dst)])
  }

  /** The order in which repeated tail pops hand out the elements of `q`. */
  function Drain(q: seq<int>): (d: seq<int>)
    ensures |d| == |q|
  {
    if q == [] then [] else [Last(q)] + Drain(q[..|q| - 1])
  }

  /** LPUSH of every element of `xs`, one after another, onto the list `q`. */
  function PushAll(q: seq<int>, xs: seq<int>): (q': seq<int>)
    ensures |q'| == |q| + |xs|
    decreases |xs|
  {
    if xs == [] then q else PushAll([xs[0]] + q, xs[1..])
  }

  /** Pushing at the head does not change what the tail pops hand out first. */
  lemma {:induction false} DrainPushFront(x: int, q: seq<int>)
    ensures Drain([x] + q) == Drain(q) + [x]
    decreases |q|
  {
    if q == [] {
      assert Drain([x]) == [x] + Drain([]);
    } else {
      var q' := q[..|q| - 1];
      assert ([x] + q)[..|q|] == [x] + q';
      DrainPushFront(x, q');
    }
  }

  /** Head pushes and tail pops make a FIFO queue: the pushed elements come out in push order,
      after everything that was already queued. */
  lemma {:induction false} DrainPushAll(q: seq<int>, xs: seq<int>)
    ensures Drain(PushAll(q, xs)) == Drain(q) + xs
    decreases |xs|
  {
    if xs != [] {
      DrainPushAll([xs[0]] + q, xs[1..]);
      DrainPushFront(xs[0], q);
      assert [xs[0]] + xs[1..] == xs;
    }
  }
}

=== FILE: transcoder.dfy ===
/** The optimiser's four frame loops over an abstract capture: copy, rescale, and the two
    frame-rate trimming loops with their `index_in` / `index_out` gate. */
module Transcoder {
  import opened Wrappers
  import opened Planner
  import opened PyNum

  /** One position of the source: whether `grab()` succeeds there, whether `retrieve()` of the
      grabbed frame succeeds, and the frame itself. Past the end of the sequence every grab fails. */
  datatype Slot<P> = Slot(grabbed: bool, retrieved: bool, pixels: P)

  /** A frame handed to the video sink: as decoded, or resized to the target dimensions. */
  datatype Frame<P> = Raw(pixels: P) | Resized(pixels: P, size: (nat, nat))

  /** `read()` (a grab followed by a retrieve) succeeds at this position. */
  predicate Readable<P>(s: Slot<P>) {
    s.grabbed && s.retrieved
  }

  /** How many frames successive `read()` calls return before the first failure. */
  function ReadableRun<P>(src: seq<Slot<P>>): (n: nat)
    ensures n <= |src|
    ensures forall i :: 0 <= i < n ==> Readable(src[i])
    ensures n < |src| ==> !Readable(src[n])
  {
    if src == [] || !Readable(src[0]) then 0 else 1 + ReadableRun(src[1..])
  }

  /** The frame written for a source position, resized when the processor rescales. */
  function Output<P>(s: Slot<P>, size: Option<(nat, nat)>): Frame<P> {
    match size
    case None => Raw(s.pixels)
    case Some(d) => Resized(s.pixels, d)
  }

  /** `copy_video`: write every frame `read()` returns, stopping at the first failed read. */
  method CopyVideo<P>(src: seq<Slot<P>>) returns (out: seq<Frame<P>>)
    ensures |out| == ReadableRun(src)
    ensures forall i :: 0 <= i < |out| ==> out[i] == Raw(src[i].pixels)
  {
    out := [];
    var k := 0;
    while k < |src| && Readable(src[k])
      invariant 0 <= k <= |src|
      invariant |out| == k
      invariant forall i :: 0 <= i < k ==> Readable(src[i]) && out[i] == Raw(src[i].pixels)
    {
      out := out + [Raw(src[k].pixels)];
      k := k + 1;
    }
  }

  /** `rescale_video`: like `copy_video`, resizing every frame to the target dimensions. */
  method RescaleVideo<P>(src: seq<Slot<P>>, size: (nat, nat)) returns (out: seq<Frame<P>>)
    ensures |out| == ReadableRun(src)
    ensures forall i :: 0 <= i < |out| ==> out[i] == Resized(src[i].pixels, size)
  {
    out := [];
    var k := 0;
    while k < |src| && Readable(src[k])
      invariant 0 <= k <= |src|
      invariant |out| == k
      invariant forall i :: 0 <= i < k ==> Readable(src[i]) && out[i] == Resized(src[i].pixels, size)
    {
      out := out + [Resized(src[k].pixels, size)];
      k := k + 1;
    }
  }

  /** The gate of the trimming loops: the frame with index `indexIn` is due as output number
      `int(indexIn / fpsFactor)`, and is written when that exceeds `indexOut`. */
  function OutDue(indexIn: nat, fpsFactor: real): int
    requires fpsFactor != 0.0
  {
    Trunc(indexIn as real / fpsFactor)
  }

  /** For a factor in (0, 1] the due index is never below the input index, so the gate opens
      for every grabbed frame once `indexOut < indexIn`. */
  lemma GateNeverRejects(indexIn: nat, fpsFactor: real)
    requires 0.0 < fpsFactor <= 1.0
    ensures OutDue(indexIn, fpsFactor) >= indexIn
  {
    var x := indexIn as real / fpsFactor;
    assert x * fpsFactor == indexIn as real;
    assert x >= 0.0;
    assert x - x * fpsFactor == x * (1.0 - fpsFactor);
    assert x * (1.0 - fpsFactor) >= 0.0;
    assert x >= indexIn as real;
  }

  /** `trim_video_fps` (no size) and `trim_video_fps_and_rescale` (with a size). `picked` lists
      the source positions of the written frames. An unopened capture fails its assertion; a
      zero factor raises ZeroDivisionError at the first grabbed frame. */
  method TrimVideoFps<P>(src: seq<Slot<P>>, isOpened: bool, fpsFactor: real, size: Option<(nat, nat)>)
    returns (failure: Option<Failure>, out: seq<Frame<P>>, picked: seq<nat>, indexIn: int, indexOut: int)
    ensures !isOpened ==> failure == Some(AssertionError) && out == []
    ensures isOpened && fpsFactor == 0.0 && ReadableOrGrabbed(src) ==>
              failure == Some(ZeroDivisionError) && out == []
    ensures -1 <= indexOut <= indexIn
    ensures |out| == indexOut + 1 == |picked|
    ensures forall j :: 0 <= j < |picked| ==>
              picked[j] <= indexIn && picked[j] < |src| && Readable(src[picked[j]]) &&
              out[j] == Output(src[picked[j]], size)
    ensures forall j, j' :: 0 <= j < j' < |picked| ==> picked[j] < picked[j']
    ensures isOpened && 0.0 < fpsFactor <= 1.0 ==>
              && failure == None
              && |out| == ReadableRun(src)
              && forall j :: 0 <= j < |out| ==> out[j] == Output(src[j], size)
  {
    failure := None;
    out := [];
    picked := [];
    indexIn := -1;
    indexOut := -1;
    if !isOpened {
      failure := Some(AssertionError);
      return;
    }
    var k := 0;
    while k < |src| && src[k].grabbed
      invariant 0 <= k <= |src|
      invariant indexIn == k - 1
      invariant -1 <= indexOut <= indexIn
      invariant |out| == indexOut + 1 == |picked|
      invariant forall j :: 0 <= j < |picked| ==>
                  picked[j] < k && Readable(src[picked[j]]) && out[j] == Output(src[picked[j]], size)
      invariant forall j, j' :: 0 <= j < j' < |picked| ==> picked[j] < picked[j']
      invariant fpsFactor == 0.0 ==> k == 0
      invariant 0.0 < fpsFactor <= 1.0 ==>
                  && indexOut == indexIn
                  && (forall i :: 0 <= i < k ==> Readable(src[i]))
                  && (forall j :: 0 <= j < |picked| ==> picked[j] == j)
    {
      indexIn := indexIn + 1;
      if fpsFactor == 0.0 {
        failure := Some(ZeroDivisionError);
        return;
      }
      var due := OutDue(indexIn, fpsFactor);
      if 0.0 < fpsFactor <= 1.0 {
        GateNeverRejects(indexIn, fpsFactor);
      }
      if due > indexOut {
        if !src[k].retrieved {
          break;
        }
        indexOut := indexOut + 1;
        out := out + [Output(src[k], size)];
        picked := picked + [k];
      }
      k := k + 1;
    }
  }

  /** The first position of the source is grabbed, so the trimming loop reaches its gate. */
  predicate ReadableOrGrabbed<P>(src: seq<Slot<P>>) {
    |src| > 0 && src[0].grabbed
  }

  /** `optimize` up to the raw output file: plan, then run the chosen processor. With a positive
      MAX_FPS and a capture that opens, every processor writes exactly the frames `read()`
      returns, in order: the trimming gate drops nothing, so no frame rate is reduced. The copy
      and rescale loops do not check that the capture opened; on an unopened capture the first
      `read()` fails, so they write nothing and report no failure, while the trimming loops fail
      their assertion. */
  method RunPlannedProcessor<P>(v: VideoInfo, lim: Limits, src: seq<Slot<P>>, isOpened: bool)
    returns (failure: Option<Failure>, out: seq<Frame<P>>)
    ensures var p := GetProcessorAndArgs(v, lim);
            isOpened && lim.maxFps > 0 ==>
              && failure == None
              && |out| == ReadableRun(src)
              && forall j :: 0 <= j < |out| ==> out[j] == Output(src[j], p.targetDimensions)
    ensures !isOpened ==> out == []
    ensures !isOpened ==> (failure == Some(AssertionError) <==> HigherFps(v, lim))
    ensures !isOpened ==> (failure == None <==> !HigherFps(v, lim))
  {
    var p := GetProcessorAndArgs(v, lim);
    match p.processor {
      case CopyVideo =>
        failure := None;
        out := CopyVideo(if isOpened then src else []);
      case RescaleVideo =>
        failure := None;
        out := RescaleVideo(if isOpened then src else [], p.targetDimensions.value);
      case TrimVideoFps =>
        var picked, indexIn, indexOut;
        failure, out, picked, indexIn, indexOut := TrimVideoFps(src, isOpened, p.fpsFactor.value, None);
      case TrimVideoFpsAndRescale =>
        var picked, indexIn, indexOut;
        failure, out, picked, indexIn, indexOut :=
          TrimVideoFps(src, isOpened, p.fpsFactor.value, p.targetDimensions);
    }
  }
}

=== FILE: users.dfy ===
/** The user registry of the API over the generic record store: authentication, registration
    with a unique username, partial modification, and the login step. Password hashing and
    verification are parameters (bcrypt is foreign code); tokens are represented by the user id
    they carry as subject. */
module Users {
  import opened Wrappers
  import opened Records
  import opened Passwords

  /** The columns a modification (`ModifiedUser`) can carry. */
  const ModifiableFields: set<string> :=
    {"id", "password", "email", "first_name", "last_name", "description", "photo", "is_active", "last_active"}

  function Username(r: Row): Value {
    Field(r.fields, "username")
  }

  function ByUsername(name: string): Fields {
    map["username" := Str(name)]
  }

  /** No two users share a username. */
  predicate UniqueUsernames(t: Table) {
    forall i, j :: 0 <= i < j < |t| ==> Username(t[i]) != Username(t[j])
  }

  /** `authenticate_user`: the first user with the username, when the password verifies against
      its stored hash; None (Python's False) otherwise. */
  function AuthenticateUser(t: Table, username: string, password: string,
                            verify: (string, Value) -> bool): (r: Option<Row>)
    ensures r.Some? ==> r.value in t && Username(r.value) == Str(username)
    ensures r.Some? ==> verify(password, Field(r.value.fields, "password"))
    ensures GetItemByField(t, ByUsername(username)).None? ==> r.None?
  {
    match GetItemByField(t, ByUsername(username))
    case None => None
    case Some(u) =>
      if !verify(password, Field(u.fields, "password")) then None else Some(u)
  }

  /** With unique usernames, authentication succeeds exactly for a stored user of that name
      whose hash verifies the password. */
  lemma AuthenticateUnique(t: Table, username: string, password: string,
                           verify: (string, Value) -> bool)
    requires UniqueUsernames(t)
    ensures AuthenticateUser(t, username, password, verify).Some? <==>
              exists i :: 0 <= i < |t| && Username(t[i]) == Str(username) &&
                          verify(password, Field(t[i].fields, "password"))
  {
    var q := ByUsername(username);
    if i :| 0 <= i < |t| && Username(t[i]) == Str(username) &&
            verify(password, Field(t[i].fields, "password")) {
      assert q["username"] == Str(username);
      assert Matches(t[i], q);
      var g := GetItemByField(t, q);
      var k :| 0 <= k < |t| && t[k] == g.value && Matches(t[k], q) &&
               forall j :: 0 <= j < k ==> !Matches(t[j], q);
      MatchesUsername(t[k], username);
      assert k == i;
    }
  }

  /** A row found by username carries that username. */
  lemma MatchesUsername(r: Row, username: string)
    requires Matches(r, ByUsername(username))
    ensures Username(r) == Str(username)
  {
    var q := ByUsername(username);
    assert "username" in q;
    assert Field(r.fields, "username") == q["username"];
  }

  /** `create_user`: an existing username is refused with 400 before anything is hashed; the
      password must pass the rules; only its hash is stored. The result is the new id, the
      subject of the issued token. */
  function CreateUser(t: Table, user: Fields, hash: string -> string, newId: int): (r: Result<(Table, int)>)
    requires Field(user, "username").Str? && Field(user, "password").Str?
    ensures GetItemByField(t, ByUsername(Field(user, "username").s)).Some? ==>
              r == Err(HttpError(400, "User already exists"))
    ensures r.Ok? <==> GetItemByField(t, ByUsername(Field(user, "username").s)).None? &&
                       TestPasswordFormat(Field(user, "password").s).Ok?
    ensures r.Err? && GetItemByField(t, ByUsername(Field(user, "username").s)).None? ==>
              r.failure == TestPasswordFormat(Field(user, "password").s).failure
    ensures r.Ok? ==>
              && r.value.1 == newId
              && r.value.0 == t + [Row(newId, user["password" := Str(hash(Field(user, "password").s))])]
    ensures r.Ok? && UniqueUsernames(t) ==> UniqueUsernames(r.value.0)
  {
    var name := Field(user, "username").s;
    if GetItemByField(t, ByUsername(name)).Some? then Err(HttpError(400, "User already exists"))
    else
      match GetPasswordHash(Field(user, "password").s, hash)
      case Err(f) => Err(f)
      case Ok(h) =>
        var row := Row(newId, user["password" := Str(h)]);
        NewUsernameKeepsUnique(t, row, name);
        Ok((CreateItem(t, row), newId))
  }

  lemma NewUsernameKeepsUnique(t: Table, row: Row, name: string)
    requires GetItemByField(t, ByUsername(name)).None?
    requires Username(row) == Str(name)
    ensures UniqueUsernames(t) ==> UniqueUsernames(t + [row])
  {
    var t' := t + [row];
    forall i | 0 <= i < |t|
      ensures Username(t[i]) != Str(name)
    {
      assert !Matches(t[i], ByUsername(name));
    }
    if UniqueUsernames(t) {
      forall i, j | 0 <= i < j < |t'|
        ensures Username(t'[i]) != Username(t'[j])
      {
        if j == |t| {
          assert t'[i] == t[i];
        } else {
          assert t'[i] == t[i] && t'[j] == t[j];
        }
      }
    }
  }

  /** With unique usernames, a user whose stored hash verifies the password logs in: a token is
      issued for that user's id. */
  lemma LoginIssuesToken(t: Table, username: string, password: string, verify: (string, Value) -> bool,
                         hash: string -> string, now: int, i: nat)
    requires UniqueUsernames(t)
    requires i < |t| && Username(t[i]) == Str(username) && verify(password, Field(t[i].fields, "password"))
    ensures CreateUserToken(t, username, password, verify, hash, now).Ok?
    ensures CreateUserToken(t, username, password, verify, hash, now).value.1 == t[i].id
  {
    AuthenticateUnique(t, username, password, verify);
    var u := AuthenticateUser(t, username, password, verify).value;
    var k :| 0 <= k < |t| && t[k] == u;
    assert k == i by {
      if k < i {} else if i < k {}
    }
  }

  /** `modify_user`: an unknown id is refused with 404; a given (truthy) password must pass the
      rules and is stored hashed; then the store's truthiness merge applies. */
  function ModifyUser(t: Table, userId: int, params: Fields, hash: string -> string): (r: Result<(Table, Option<Row>)>)
    requires forall k :: k in params ==> k in ModifiableFields
    requires Field(params, "password").Str? || Field(params, "password").Null?
    ensures GetItem(t, userId).None? ==> r == Err(HttpError(404, "User doesn't exist"))
    ensures r.Ok? <==> GetItem(t, userId).Some? &&
                       (Truthy(Field(params, "password")) ==> TestPasswordFormat(Field(params, "password").s).Ok?)
    ensures r.Ok? ==> r.value.1.Some? && r.value.1 == GetItem(r.value.0, userId)
    ensures r.Ok? && Truthy(Field(params, "password")) && hash(Field(params, "password").s) != "" ==>
              Field(r.value.1.value.fields, "password") == Str(hash(Field(params, "password").s))
    ensures r.Ok? && !Truthy(Field(params, "password")) ==>
              Field(r.value.1.value.fields, "password") == Field(GetItem(t, userId).value.fields, "password")
    ensures r.Ok? ==> Username(r.value.1.value) == Username(GetItem(t, userId).value)
    ensures r.Ok? && UniqueUsernames(t) ==> UniqueUsernames(r.value.0)
  {
    match GetItem(t, userId)
    case None => Err(HttpError(404, "User doesn't exist"))
    case Some(user) =>
      match SentParams(params, hash)
      case Err(f) => Err(f)
      case Ok(upd) =>
        UsernameIsNotModifiable();
        assert "username" !in upd;
        ModifyApplies(t, userId, upd);
        var u := UpdateItem(t, userId, upd);
        Ok((u.table, u.item))
  }

  lemma UsernameIsNotModifiable()
    ensures "username" !in ModifiableFields
  {
  }

  /** The modification `modify_user` sends: a truthy password must pass the rules and is
      replaced by its hash; otherwise the parameters go as given. */
  function SentParams(params: Fields, hash: string -> string): (r: Result<Fields>)
    requires Field(params, "password").Str? || Field(params, "password").Null?
    ensures r.Ok? <==> (Truthy(Field(params, "password")) ==> TestPasswordFormat(Field(params, "password").s).Ok?)
    ensures r.Err? ==> r.failure == TestPasswordFormat(Field(params, "password").s).failure
    ensures r.Ok? && Truthy(Field(params, "password")) ==>
              r.value == params["password" := Str(hash(Field(params, "password").s))]
    ensures r.Ok? && !Truthy(Field(params, "password")) ==> r.value == params
  {
    var pw := Field(params, "password");
    if Truthy(pw) then
      match GetPasswordHash(pw.s, hash)
      case Err(f) => Err(f)
      case Ok(h) => Ok(params["password" := Str(h)])
    else Ok(params)
  }

  /** What an update of a stored user without a username column guarantees. */
  lemma ModifyApplies(t: Table, userId: int, upd: Fields)
    requires GetItem(t, userId).Some?
    requires "username" !in upd
    ensures var u := UpdateItem(t, userId, upd);
            && u.item.Some? && u.item == GetItem(u.table, userId)
            && u.item.value.fields == Merge(GetItem(t, userId).value.fields, upd)
            && Username(u.item.value) == Username(GetItem(t, userId).value)
            && Field(u.item.value.fields, "password") ==
                 (if Applied(upd, "password") then upd["password"]
                  else Field(GetItem(t, userId).value.fields, "password"))
            && (UniqueUsernames(t) ==> UniqueUsernames(u.table))
  {
    UpdateKeepsUsernames(t, userId, upd);
    ModifiedRowIsFound(t, userId, upd);
    assert !Applied(upd, "username");
  }

  /** An update without a username column keeps every username, hence their uniqueness. */
  lemma UpdateKeepsUsernames(t: Table, id: int, upd: Fields)
    requires "username" !in upd
    ensures var t' := UpdateItem(t, id, upd).table;
            |t'| == |t| && (forall i :: 0 <= i < |t| ==> Username(t'[i]) == Username(t[i]))
    ensures UniqueUsernames(t) ==> UniqueUsernames(UpdateItem(t, id, upd).table)
  {
    var u := UpdateItem(t, id, upd);
    if u.item.Some? {
      var i :| 0 <= i < |t| && t[i].id == id && (forall j :: 0 <= j < i ==> t[j].id != id) &&
               u.table == t[i := u.item.value] && u.item.value == Row(id, Merge(t[i].fields, upd));
      assert Username(u.table[i]) == Username(t[i]);
    }
  }

  /** The row an update returns is the row a lookup by the same id then finds. */
  lemma ModifiedRowIsFound(t: Table, id: int, upd: Fields)
    requires GetItem(t, id).Some?
    ensures var u := UpdateItem(t, id, upd);
            u.item.Some? && u.item == GetItem(u.table, id) &&
            u.item.value.fields == Merge(GetItem(t, id).value.fields, upd)
  {
    var u := UpdateItem(t, id, upd);
    var i :| 0 <= i < |t| && t[i].id == id && (forall j :: 0 <= j < i ==> t[j].id != id) &&
             u.table == t[i := u.item.value] && u.item.value == Row(id, Merge(t[i].fields, upd));
    assert FirstWithId(t, id, 0) == Some(i);
    assert u.table[i].id == id;
    assert forall j :: 0 <= j < i ==> u.table[j] == t[j];
    var f := FirstWithId(u.table, id, 0);
    assert f.Some?;
    assert f.value == i;
  }

  /** Deactivating a user sends only `is_active = False`, which the truthiness merge skips: the
      registry is unchanged. */
  lemma DeactivateUserChangesNothing(t: Table, userId: int, hash: string -> string)
    requires GetItem(t, userId).Some?
    ensures var r := ModifyUser(t, userId, map["is_active" := Bool(false)], hash);
            r.Ok? && r.value.0 == t
  {
    var upd := map["is_active" := Bool(false)];
    var user := GetItem(t, userId).value;
    assert user.id == userId;
    var u := UpdateItem(t, userId, upd);
    var i :| 0 <= i < |t| && t[i].id == userId && (forall j :: 0 <= j < i ==> t[j].id != userId) &&
             u.table == t[i := u.item.value] && u.item.value == Row(userId, Merge(t[i].fields, upd));
    FalsyUpdateIsNoOp(t[i].fields, upd);
    assert u.table == t;
  }

  /** Stamping the login time on a stored user succeeds and leaves the time on the user's row. */
  lemma LoginStamp(t: Table, userId: int, hash: string -> string, now: int)
    requires GetItem(t, userId).Some?
    ensures var r := ModifyUser(t, userId, map["last_active" := Time(now)], hash);
            && r.Ok?
            && GetItem(r.value.0, userId).Some?
            && Field(GetItem(r.value.0, userId).value.fields, "last_active") == Time(now)
  {
    assert !Truthy(Field(map["last_active" := Time(now)], "password"));
  }

  /** `create_user_token`: a failed authentication is refused with 401; otherwise `last_active`
      is set to the login time before the token for the user's id is issued. */
  function CreateUserToken(t: Table, username: string, password: string,
                           verify: (string, Value) -> bool, hash: string -> string, now: int)
    : (r: Result<(Table, int)>)
    ensures AuthenticateUser(t, username, password, verify).None? ==>
              r == Err(HttpError(401, "Incorrect username or password"))
    ensures AuthenticateUser(t, username, password, verify).Some? ==> r.Ok?
    ensures r.Ok? ==>
              && AuthenticateUser(t, username, password, verify).Some?
              && r.value.1 == AuthenticateUser(t, username, password, verify).value.id
              && GetItem(r.value.0, r.value.1).Some?
              && Field(GetItem(r.value.0, r.value.1).value.fields, "last_active") == Time(now)
    ensures r.Ok? && UniqueUsernames(t) ==> UniqueUsernames(r.value.0)
  {
    match AuthenticateUser(t, username, password, verify)
    case None => Err(HttpError(401, "Incorrect username or password"))
    case Some(user) =>
      assert GetItem(t, user.id).Some? by {
        var j :| 0 <= j < |t| && t[j] == user;
      }
      LoginStamp(t, user.id, hash, now);
      match ModifyUser(t, user.id, map["last_active" := Time(now)], hash)
      case Err(f) => Err(f)
      case Ok(res) => Ok((res.0, user.id))
  }
}

=== FILE: video_routes.dfy ===
/** The video routes of the API that do more than delegate: the owner filter of the listing,
    upload confirmation (queue the video for optimisation), measurement creation (queue it for
    prediction when the video is already optimised), and the video guard of the measurement
    routes. The authenticated user is a parameter. */
module VideoRoutes {
  import opened Wrappers
  import opened Records
  import opened RedisLists
  import opened Orchestrator
  import opened VideoService
  import opened Pipeline

  /** The owner column of a video row. */
  function Owner(v: Row): Value {
    Field(v.fields, "owner_id")
  }

  /** The videos of user `userId`, in store order: the filter
      `[v for v in videos if v.owner_id == user_id]`. */
  function OwnedBy(t: Table, userId: int): (vs: seq<Row>)
    ensures |vs| <= |t|
    ensures multiset(vs) <= multiset(t)
    ensures forall v :: v in vs <==> v in t && Owner(v) == Int(userId)
  {
    OwnedKeeps(t, userId);
    Owned(t, userId)
  }

  /** The filter itself, row by row. */
  function Owned(t: Table, userId: int): seq<Row> {
    if t == [] then []
    else (if Owner(t[0]) == Int(userId) then [t[0]] else []) + Owned(t[1..], userId)
  }

  lemma {:induction false} OwnedKeeps(t: Table, userId: int)
    ensures |Owned(t, userId)| <= |t|
    ensures multiset(Owned(t, userId)) <= multiset(t)
    ensures forall v :: v in Owned(t, userId) <==> v in t && Owner(v) == Int(userId)
    decreases |t|
  {
    if t != [] {
      OwnedKeeps(t[1..], userId);
      assert t == [t[0]] + t[1..];
    }
  }

  /** The filter runs row by row: filtering a concatenation concatenates the filtered parts,
      so a video appended to the table is appended to its owner's listing. */
  lemma OwnedByAppend(a: Table, b: Table, userId: int)
    ensures OwnedBy(a + b, userId) == OwnedBy(a, userId) + OwnedBy(b, userId)
  {
    OwnedAppend(a, b, userId);
  }

  lemma {:induction false} OwnedAppend(a: Table, b: Table, userId: int)
    ensures Owned(a + b, userId) == Owned(a, userId) + Owned(b, userId)
    decreases |a|
  {
    if a == [] {
      assert a + b == b;
    } else {
      OwnedAppend(a[1..], b, userId);
      assert (a + b)[0] == a[0];
      assert (a + b)[1..] == a[1..] + b;
    }
  }

  /** `get_videos`: the requesting user's videos. On an empty table the store returns None
      instead of a list and the filter raises TypeError. */
  function ListVideos(db: Db, userId: int): (r: Result<seq<Row>>)
    ensures r.Err? <==> db.videos == []
    ensures r.Err? ==> r.failure.TypeError?
    ensures r.Ok? ==> forall v :: v in r.value <==> v in db.videos && Owner(v) == Int(userId)
    ensures r.Ok? ==> multiset(r.value) <= multiset(db.videos)
  {
    match GetItems(db.videos)
    case None => Err(TypeError("'NoneType' object is not iterable"))
    case Some(vs) => Ok(OwnedBy(vs, userId))
  }

  /** A video created for a user ends its owner's listing, after the videos listed before. */
  lemma CreatedVideoIsListed(db: Db, userId: int, video: Fields, newId: int)
    ensures var res := CreateVideo(db, userId, video, newId);
            && ListVideos(res.0, userId).Ok?
            && ListVideos(res.0, userId).value == OwnedBy(db.videos, userId) + [res.1]
  {
    var res := CreateVideo(db, userId, video, newId);
    OwnedByAppend(db.videos, [res.1], userId);
    assert OwnedBy([res.1], userId) == [res.1] by {
      OwnedKeeps([res.1], userId);
    }
  }

  /** No video is listed for two different users. */
  lemma ListingsAreDisjoint(db: Db, u1: int, u2: int, v: Row)
    requires u1 != u2
    requires ListVideos(db, u1).Ok?
    ensures v in ListVideos(db, u1).value ==> v !in ListVideos(db, u2).value
  {
  }

  /** Every video of the store is listed for its owner, once the store is not empty. */
  lemma OwnerSeesEveryVideo(db: Db, v: Row, userId: int)
    requires v in db.videos && Owner(v) == Int(userId)
    ensures ListVideos(db, userId).Ok? && v in ListVideos(db, userId).value
  {
  }

  /** `confirm_upload`: push the video id onto the optimiser's queue, then set the video's status
      to 'QUEUED'. The push happens whether or not the video exists. */
  function ConfirmUpload(s: System, id: int): (res: (System, Option<Row>))
    ensures List(res.0.keys, OptimizerStage.origin) == [id] + List(s.keys, OptimizerStage.origin)
    ensures forall k :: k != OptimizerStage.origin ==> List(res.0.keys, k) == List(s.keys, k)
    ensures res.0.db.measurements == s.db.measurements && res.0.db.detections == s.db.detections
    ensures res.1.None? <==> GetVideo(s.db, id).None?
    ensures res.1.Some? ==> res.1 == GetVideo(res.0.db, id) && Status(res.1.value) == Str("QUEUED")
    ensures res.1.None? ==> res.0.db == s.db
    ensures |res.0.db.videos| == |s.db.videos|
    ensures forall j :: 0 <= j < |s.db.videos| && s.db.videos[j].id != id ==>
              res.0.db.videos[j] == s.db.videos[j]
  {
    var keys := LPush(s.keys, OptimizerStage.origin, id);
    var u := UpdateVideo(s.db, id, StatusUpdate("QUEUED"));
    assert u.1.Some? ==> Applied(StatusUpdate("QUEUED"), "status");
    (System(keys, u.0), u.1)
  }

  /** Upload confirmations one after another, in the order of `ids`. */
  function ConfirmAll(s: System, ids: seq<int>): System
    decreases |ids|
  {
    if ids == [] then s else ConfirmAll(ConfirmUpload(s, ids[0]).0, ids[1..])
  }

  /** One confirmation's effect on the lists: the id is pushed on the optimiser's queue. */
  lemma ConfirmUploadPushes(s: System, id: int)
    ensures ConfirmUpload(s, id).0.keys == s.keys[OptimizerStage.origin := [id] + List(s.keys, OptimizerStage.origin)]
  {
  }

  /** Pushing one id and then the rest is pushing them all. */
  lemma PushThenPushAll(k: Keyspace, o: string, ids: seq<int>)
    requires ids != []
    ensures var k1 := k[o := [ids[0]] + List(k, o)];
            k1[o := PushAll(List(k1, o), ids[1..])] == k[o := PushAll(List(k, o), ids)]
  {
  }

  /** The confirmations leave the optimiser's queue holding every confirmed id, pushed in order,
      and every other list as it was. */
  lemma {:induction false} ConfirmAllPushes(s: System, ids: seq<int>)
    ensures ids != [] ==>
              ConfirmAll(s, ids).keys ==
              s.keys[OptimizerStage.origin := PushAll(List(s.keys, OptimizerStage.origin), ids)]
    decreases |ids|
  {
    var o := OptimizerStage.origin;
    if ids != [] {
      var s1 := ConfirmUpload(s, ids[0]).0;
      ConfirmAllPushes(s1, ids[1..]);
      ConfirmUploadPushes(s, ids[0]);
      PushThenPushAll(s.keys, o, ids);
      if ids[1..] == [] {
        assert PushAll(List(s.keys, o), ids) == [ids[0]] + List(s.keys, o);
      }
    }
  }

  /** With nothing waiting for optimisation, the optimiser claims the confirmed videos in the
      order their uploads were confirmed. */
  lemma ConfirmedVideosAreClaimedInOrder(s: System, ids: seq<int>)
    requires List(s.keys, OptimizerStage.origin) == []
    ensures Claims(ConfirmAll(s, ids).keys, OptimizerStage, |ids|) == ids
  {
    if ids != [] {
      ConfirmAllPushes(s, ids);
      ClaimsInPushOrder(s.keys, OptimizerStage, ids);
    }
  }

  /** `create_measurement` (the route): a missing video raises AttributeError when its status is
      read. A measurement of an optimised video is stored as 'QUEUED' and its new id pushed onto
      the prediction queue; otherwise it is stored with the status it came with and nothing is
      pushed. */
  function CreateMeasurementRoute(s: System, videoId: int, m: Fields, newId: int): (r: Result<(System, Row)>)
    ensures r.Err? <==> GetVideo(s.db, videoId).None?
    ensures r.Err? ==> r.failure == AttributeError
    ensures r.Ok? ==>
              var queued := Status(GetVideo(s.db, videoId).value) == Str("OPTIMIZED");
              && r.value.1.id == newId
              && Field(r.value.1.fields, "video_id") == Int(videoId)
              && Status(r.value.1) == (if queued then Str("QUEUED") else Field(m, "status"))
              && r.value.0.db.measurements == s.db.measurements + [r.value.1]
              && r.value.0.db.videos == s.db.videos && r.value.0.db.detections == s.db.detections
              && List(r.value.0.keys, PredictorStage.origin) ==
                   (if queued then [newId] else []) + List(s.keys, PredictorStage.origin)
              && forall k :: k != PredictorStage.origin ==> List(r.value.0.keys, k) == List(s.keys, k)
  {
    match GetVideo(s.db, videoId)
    case None => Err(AttributeError)
    case Some(video) =>
      var queued := Status(video) == Str("OPTIMIZED");
      var m' := if queued then m["status" := Str("QUEUED")] else m;
      var created := CreateMeasurement(s.db, videoId, m', newId);
      var keys := if queued then LPush(s.keys, PredictorStage.origin, newId) else s.keys;
      Ok((System(keys, created.0), created.1))
  }

  /** Every id waiting for prediction names a stored measurement whose status is 'QUEUED'. */
  predicate QueuedAreMarked(s: System) {
    forall x :: x in List(s.keys, PredictorStage.origin) ==>
      GetMeasurement(s.db, x).Some? && Status(GetMeasurement(s.db, x).value) == Str("QUEUED")
  }

  /** Creating a measurement through the route keeps every queued id marked 'QUEUED', given the
      database assigns a key no stored measurement has. */
  lemma CreateMeasurementKeepsQueueMarked(s: System, videoId: int, m: Fields, newId: int)
    requires QueuedAreMarked(s)
    requires GetMeasurement(s.db, newId).None?
    ensures var r := CreateMeasurementRoute(s, videoId, m, newId);
            r.Ok? ==> QueuedAreMarked(r.value.0)
  {
    var r := CreateMeasurementRoute(s, videoId, m, newId);
    if r.Ok? {
      var s' := r.value.0;
      var row := r.value.1;
      forall x | x in List(s'.keys, PredictorStage.origin)
        ensures GetMeasurement(s'.db, x).Some? && Status(GetMeasurement(s'.db, x).value) == Str("QUEUED")
      {
        CreateThenGet(s.db.measurements, row, x);
        if x !in List(s.keys, PredictorStage.origin) {
          assert x == newId;
        }
      }
    }
  }

  /** The measurements of a video after one more row is stored. */
  lemma {:induction false} AttachedAppend(t: Table, r: Row, videoId: int)
    ensures Attached(t + [r], videoId) ==
              Attached(t, videoId) + (if Field(r.fields, "video_id") == Int(videoId) then [r] else [])
    decreases |t|
  {
    if t == [] {
      assert [] + [r] == [r];
      assert [r][1..] == [];
    } else {
      assert (t + [r])[0] == t[0];
      assert (t + [r])[1..] == t[1..] + [r];
      AttachedAppend(t[1..], r, videoId);
    }
  }

  lemma RequestedIdsAppend(a: seq<Row>, b: seq<Row>)
    ensures RequestedIds(a + b) == RequestedIds(a) + RequestedIds(b)
  {
    PickedAppend(a, b);
  }

  /** A measurement created before its video is optimised keeps the default status 'CREATED'; it
      is not queued now, and the fan-out after optimisation, which picks only 'REQUESTED'
      measurements, pushes exactly the ids it would have pushed without it: it is never queued. */
  lemma EarlyMeasurementIsNeverQueued(s: System, videoId: int, m: Fields, newId: int)
    requires GetVideo(s.db, videoId).Some?
    requires Status(GetVideo(s.db, videoId).value) != Str("OPTIMIZED")
    requires Field(m, "status") == Str("CREATED")
    ensures var r := CreateMeasurementRoute(s, videoId, m, newId);
            && r.Ok?
            && r.value.0.keys == s.keys
            && RequestedIds(MeasurementsOf(r.value.0.db, videoId)) == RequestedIds(MeasurementsOf(s.db, videoId))
  {
    EarlyMeasurementKeepsKeys(s, videoId, m, newId);
    var r := CreateMeasurementRoute(s, videoId, m, newId);
    var row := r.value.1;
    AttachedAppend(s.db.measurements, row, videoId);
    RequestedIdsAppend(MeasurementsOf(s.db, videoId), [row]);
    assert !Requested(row);
    assert Picked([row]) == [] by {
      assert [row][1..] == [];
    }
  }

  /** Creating a measurement of a video that is not optimised pushes nothing. */
  lemma EarlyMeasurementKeepsKeys(s: System, videoId: int, m: Fields, newId: int)
    requires GetVideo(s.db, videoId).Some?
    requires Status(GetVideo(s.db, videoId).value) != Str("OPTIMIZED")
    ensures var r := CreateMeasurementRoute(s, videoId, m, newId);
            r.Ok? && r.value.0.keys == s.keys
  {
  }

  /** Decimal digits of a natural number, as Python's `str()` writes them. */
  function Digits(n: nat): string
    decreases n
  {
    if n < 10 then [(48 + n) as char] else Digits(n / 10) + [(48 + n % 10) as char]
  }

  /** `str()` of an integer. */
  function Decimal(n: int): string {
    if n < 0 then "-" + Digits(-n) else Digits(n)
  }

  function NotFoundFor(videoId: int): Failure {
    HttpError(404, "Measurement not found for video " + Decimal(videoId))
  }

  /** The guard of the three measurement routes: a missing measurement raises AttributeError when
      its `video_id` is read; one of another video is refused with 404. */
  function MeasurementOfVideo(db: Db, videoId: int, id: int): (r: Result<Row>)
    ensures GetMeasurement(db, id).None? ==> r == Err(AttributeError)
    ensures r.Ok? <==> GetMeasurement(db, id).Some? &&
                       Field(GetMeasurement(db, id).value.fields, "video_id") == Int(videoId)
    ensures GetMeasurement(db, id).Some? && r.Err? ==> r.failure == NotFoundFor(videoId)
    ensures r.Ok? ==> r.value.id == id && r.value in db.measurements && r.value in MeasurementsOf(db, videoId)
  {
    match GetMeasurement(db, id)
    case None => Err(AttributeError)
    case Some(m) =>
      if Field(m.fields, "video_id") == Int(videoId) then Ok(m) else Err(NotFoundFor(videoId))
  }

  /** The patch route: the guarded measurement is merged with the update. */
  function PatchMeasurementRoute(db: Db, videoId: int, id: int, upd: Fields): (r: Result<(Db, Row)>)
    ensures r.Ok? <==> MeasurementOfVideo(db, videoId, id).Ok?
    ensures r.Err? ==> r.failure == MeasurementOfVideo(db, videoId, id).failure
    ensures r.Ok? ==>
              && r.value.0.videos == db.videos && r.value.0.detections == db.detections
              && GetMeasurement(r.value.0, id) == Some(r.value.1)
              && r.value.1.fields == Merge(MeasurementOfVideo(db, videoId, id).value.fields, upd)
  {
    match MeasurementOfVideo(db, videoId, id)
    case Err(f) => Err(f)
    case Ok(_) =>
      var u := UpdateMeasurement(db, id, upd);
      Ok((u.0, u.1.value))
  }

  /** An update that does not move the measurement to another video leaves it reachable through
      the same route. */
  lemma PatchThenGet(db: Db, videoId: int, id: int, upd: Fields)
    requires !Applied(upd, "video_id")
    requires PatchMeasurementRoute(db, videoId, id, upd).Ok?
    ensures var p := PatchMeasurementRoute(db, videoId, id, upd).value;
            MeasurementOfVideo(p.0, videoId, id) == Ok(p.1)
  {
  }

  /** The delete route, as written: it deactivates through `remove_measurement`, which changes
      nothing, so a measurement of the video is returned unchanged and the database stays as it
      was. */
  function DeleteMeasurementRoute(db: Db, videoId: int, id: int): (r: Result<(Db, Row)>)
    ensures r.Ok? <==> MeasurementOfVideo(db, videoId, id).Ok?
    ensures r.Err? ==> r.failure == MeasurementOfVideo(db, videoId, id).failure
    ensures r.Ok? ==> r.value.0 == db && r.value.1 == MeasurementOfVideo(db, videoId, id).value
  {
    match MeasurementOfVideo(db, videoId, id)
    case Err(f) => Err(f)
    case Ok(_) =>
      var u := RemoveMeasurement(db, id);
      Ok((u.0, u.1.value))
  }
}

=== FILE: video_service.dfy ===
/** The record-level service shared by both applications: creating, updating and deactivating
    videos, measurements and detections over the three tables. */
module VideoService {
  import opened Wrappers
  import opened Records

  /** The three tables the service manages. */
  datatype Db = Db(videos: Table, measurements: Table, detections: Table)

  /** The measurement line a new measurement gets when any coordinate is missing or zero. */
  const DefaultCoordinate: real := 0.5

  const Coordinates: seq<string> := ["x1", "y1", "x2", "y2"]

  /** Python's `all([m.x1, m.y1, m.x2, m.y2])`. */
  predicate AllCoordinatesSet(f: Fields) {
    Truthy(Field(f, "x1")) && Truthy(Field(f, "y1")) && Truthy(Field(f, "x2")) && Truthy(Field(f, "y2"))
  }

  /** `create_video`: the owner is the requesting user; the row gets the key the database assigns. */
  function CreateVideo(db: Db, userId: int, video: Fields, newId: int): (res: (Db, Row))
    ensures res.1.id == newId
    ensures Field(res.1.fields, "owner_id") == Int(userId)
    ensures forall k :: k != "owner_id" ==> Field(res.1.fields, k) == Field(video, k)
    ensures res.0 == db.(videos := db.videos + [res.1])
  {
    var row := Row(newId, video["owner_id" := Int(userId)]);
    (db.(videos := CreateItem(db.videos, row)), row)
  }

  /** The fields `create_measurement` stores for a new measurement of video `videoId`. */
  function NewMeasurementFields(videoId: int, m: Fields): (g: Fields)
    ensures Field(g, "video_id") == Int(videoId)
    ensures AllCoordinatesSet(m) ==>
              forall k :: k in Coordinates ==> Field(g, k) == Field(m, k)
    ensures !AllCoordinatesSet(m) ==>
              forall k :: k in Coordinates ==> Field(g, k) == Real(DefaultCoordinate)
    ensures forall k :: k !in Coordinates && k != "video_id" ==> Field(g, k) == Field(m, k)
  {
    var f := m["video_id" := Int(videoId)];
    if AllCoordinatesSet(m) then f
    else
      var d := Real(DefaultCoordinate);
      f["x1" := d]["y1" := d]["x2" := d]["y2" := d]
  }

  /** `create_measurement`: store the measurement under the video with its line defaulted. */
  function CreateMeasurement(db: Db, videoId: int, m: Fields, newId: int): (res: (Db, Row))
    ensures res.1.id == newId
    ensures Field(res.1.fields, "video_id") == Int(videoId)
    ensures AllCoordinatesSet(m) ==>
              forall k :: k in Coordinates ==> Field(res.1.fields, k) == Field(m, k)
    ensures !AllCoordinatesSet(m) ==>
              forall k :: k in Coordinates ==> Field(res.1.fields, k) == Real(DefaultCoordinate)
    ensures forall k :: k !in Coordinates && k != "video_id" ==> Field(res.1.fields, k) == Field(m, k)
    ensures res.0 == db.(measurements := db.measurements + [res.1])
  {
    var row := Row(newId, NewMeasurementFields(videoId, m));
    (db.(measurements := CreateItem(db.measurements, row)), row)
  }

  /** `create_detection`: a per-class result row of measurement `measurementId`. */
  function CreateDetection(db: Db, measurementId: int, d: Fields, newId: int): (res: (Db, Row))
    ensures Field(res.1.fields, "measurement_id") == Int(measurementId)
    ensures forall k :: k != "measurement_id" ==> Field(res.1.fields, k) == Field(d, k)
    ensures res.0 == db.(detections := db.detections + [res.1])
  {
    var row := Row(newId, d["measurement_id" := Int(measurementId)]);
    (db.(detections := CreateItem(db.detections, row)), row)
  }

  function GetVideo(db: Db, id: int): Option<Row> {
    GetItem(db.videos, id)
  }

  function GetMeasurement(db: Db, id: int): Option<Row> {
    GetItem(db.measurements, id)
  }

  /** `update_video`: the store's update on the video table; the other tables are untouched. */
  function UpdateVideo(db: Db, id: int, upd: Fields): (res: (Db, Option<Row>))
    ensures res.0.measurements == db.measurements && res.0.detections == db.detections
    ensures res.1.None? <==> GetVideo(db, id).None?
    ensures res.1.None? ==> res.0 == db
    ensures |res.0.videos| == |db.videos|
    ensures forall j :: 0 <= j < |db.videos| && db.videos[j].id != id ==> res.0.videos[j] == db.videos[j]
    ensures res.1.Some? ==> res.1 == GetVideo(res.0, id) && res.1.value.fields == Merge(GetVideo(db, id).value.fields, upd)
  {
    var u := UpdateItem(db.videos, id, upd);
    FirstWithIdAfterUpdate(db.videos, id, upd);
    (db.(videos := u.table), u.item)
  }

  /** `update_measurement`: the store's update on the measurement table. */
  function UpdateMeasurement(db: Db, id: int, upd: Fields): (res: (Db, Option<Row>))
    ensures res.0.videos == db.videos && res.0.detections == db.detections
    ensures res.1.None? <==> GetMeasurement(db, id).None?
    ensures res.1.None? ==> res.0 == db
    ensures |res.0.measurements| == |db.measurements|
    ensures forall j :: 0 <= j < |db.measurements| && db.measurements[j].id != id ==>
              res.0.measurements[j] == db.measurements[j]
    ensures res.1.Some? ==> res.1 == GetMeasurement(res.0, id) && res.1.value.fields == Merge(GetMeasurement(db, id).value.fields, upd)
  {
    var u := UpdateItem(db.measurements, id, upd);
    FirstWithIdAfterUpdate(db.measurements, id, upd);
    (db.(measurements := u.table), u.item)
  }

  /** An update rewrites the very row a later lookup by the same key finds. */
  lemma FirstWithIdAfterUpdate(t: Table, id: int, upd: Fields)
    ensures var u := UpdateItem(t, id, upd);
            u.item.Some? ==> GetItem(t, id).Some? && u.item == GetItem(u.table, id) &&
                             u.item.value.fields == Merge(GetItem(t, id).value.fields, upd)
  {
    var u := UpdateItem(t, id, upd);
    if u.item.Some? {
      var i :| 0 <= i < |t| && t[i].id == id && (forall j :: 0 <= j < i ==> t[j].id != id) &&
               u.table == t[i := u.item.value] && u.item.value == Row(id, Merge(t[i].fields, upd));
      assert FirstWithId(t, id, 0) == Some(i);
      assert forall j :: 0 <= j < i ==> u.table[j] == t[j];
      assert u.table[i].id == id;
      var f := FirstWithId(u.table, id, 0);
      assert f.Some?;
      assert f.value == i;
    }
  }

  /** The update `remove_video` and `remove_measurement` send: only `is_active = False`. */
  const Deactivate: Fields := map["is_active" := Bool(false)]

  /** `remove_video`, as written: `update_item` skips the falsy `False`, so nothing changes. */
  function RemoveVideo(db: Db, id: int): (res: (Db, Option<Row>))
    ensures res.0 == db
    ensures res.1 == GetVideo(db, id)
  {
    var res := UpdateVideo(db, id, Deactivate);
    FalsyUpdateIsNoOp(if GetVideo(db, id).Some? then GetVideo(db, id).value.fields else map[], Deactivate);
    assert res.1.Some? ==> res.1.value.fields == GetVideo(db, id).value.fields;
    UpdateOfUnchangedRow(db.videos, id, Deactivate);
    res
  }

  /** `remove_measurement`, as written: nothing changes either. */
  function RemoveMeasurement(db: Db, id: int): (res: (Db, Option<Row>))
    ensures res.0 == db
    ensures res.1 == GetMeasurement(db, id)
  {
    var res := UpdateMeasurement(db, id, Deactivate);
    UpdateOfUnchangedRow(db.measurements, id, Deactivate);
    res
  }

  /** An update that leaves the row's fields as they were leaves the table as it was. */
  lemma UpdateOfUnchangedRow(t: Table, id: int, upd: Fields)
    requires forall k :: k in upd ==> !Truthy(upd[k])
    ensures UpdateItem(t, id, upd).table == t
    ensures UpdateItem(t, id, upd).item == GetItem(t, id)
  {
    FirstWithIdAfterUpdate(t, id, upd);
    var u := UpdateItem(t, id, upd);
    if u.item.Some? {
      var i :| 0 <= i < |t| && t[i].id == id && (forall j :: 0 <= j < i ==> t[j].id != id) &&
               u.table == t[i := u.item.value] && u.item.value == Row(id, Merge(t[i].fields, upd));
      FalsyUpdateIsNoOp(t[i].fields, upd);
      assert u.table == t;
    }
  }

  /** The intended partial update: every value that was given (is not None) is written, so an
      explicit False or 0 is applied too. */
  function MergeGiven(f: Fields, upd: Fields): (g: Fields)
    ensures forall k :: k in upd && upd[k] != Null ==> Field(g, k) == upd[k]
    ensures forall k :: !(k in upd && upd[k] != Null) ==> Field(g, k) == Field(f, k)
  {
    map k | k in f.Keys + upd.Keys && (k in f || (k in upd && upd[k] != Null)) ::
      if k in upd && upd[k] != Null then upd[k] else f[k]
  }

  /** For updates whose values are all None or truthy the two merges agree, so every status,
      name and key update of the pipeline behaves the same under either. */
  lemma MergesAgreeOnTruthyUpdates(f: Fields, upd: Fields)
    requires forall k :: k in upd ==> upd[k] == Null || Truthy(upd[k])
    ensures MergeGiven(f, upd) == Merge(f, upd)
  {
    var g := MergeGiven(f, upd);
    var h := Merge(f, upd);
    assert forall k :: k in g <==> k in h;
    forall k | k in g
      ensures g[k] == h[k]
    {
      assert Field(g, k) == Field(h, k);
    }
  }

  /** Deactivation with the intended merge: the video row is marked inactive. */
  function RemoveVideoIntended(db: Db, id: int): (res: (Db, Option<Row>))
    ensures res.0.measurements == db.measurements && res.0.detections == db.detections
    ensures res.1.None? <==> GetVideo(db, id).None?
    ensures res.1.Some? ==> res.1 == GetVideo(res.0, id) && Field(res.1.value.fields, "is_active") == Bool(false)
  {
    match FirstWithId(db.videos, id, 0)
    case None => (db, None)
    case Some(i) =>
      var r := Row(id, MergeGiven(db.videos[i].fields, Deactivate));
      FirstAfterSet(db.videos, id, i, r);
      (db.(videos := db.videos[i := r]), Some(r))
  }

  /** Rewriting the first row with a key, keeping the key, leaves it the first row with the key. */
  lemma FirstAfterSet(t: Table, id: int, i: nat, r: Row)
    requires FirstWithId(t, id, 0) == Some(i) && r.id == id
    ensures FirstWithId(t[i := r], id, 0) == Some(i)
  {
    var t' := t[i := r];
    assert t'[i].id == id;
    assert forall j :: 0 <= j < i ==> t'[j].id == t[j].id;
    var f := FirstWithId(t', id, 0);
    assert f.Some?;
    assert !(f.value < i) && !(i < f.value);
  }

  /** A video created under a key no stored video has is found under that key, and every other
      lookup finds what it found before. */
  lemma CreatedVideoIsFound(db: Db, userId: int, video: Fields, newId: int, x: int)
    requires GetVideo(db, newId).None?
    ensures var res := CreateVideo(db, userId, video, newId);
            && GetVideo(res.0, newId) == Some(res.1)
            && (x != newId ==> GetVideo(res.0, x) == GetVideo(db, x))
  {
    var res := CreateVideo(db, userId, video, newId);
    assert res.0.videos == CreateItem(db.videos, res.1);
    CreateThenGet(db.videos, res.1, newId);
    CreateThenGet(db.videos, res.1, x);
  }

  /** Counterexample: an active video stays active after `remove_video`, while the intended
      update deactivates it. */
  lemma RemoveVideoKeepsActive(db: Db, id: int)
    requires GetVideo(db, id).Some?
    requires Field(GetVideo(db, id).value.fields, "is_active") == Bool(true)
    ensures Field(GetVideo(RemoveVideo(db, id).0, id).value.fields, "is_active") == Bool(true)
    ensures Field(RemoveVideoIntended(db, id).1.value.fields, "is_active") == Bool(false)
  {
  }

  /** The measurements attached to a video, in store order (the `video.measurements` relation). */
  function MeasurementsOf(db: Db, videoId: int): (ms: seq<Row>)
    ensures forall m :: m in ms <==> m in db.measurements && Field(m.fields, "video_id") == Int(videoId)
  {
    Attached(db.measurements, videoId)
  }

  function Attached(t: Table, videoId: int): (ms: seq<Row>)
    ensures forall m :: m in ms <==> m in t && Field(m.fields, "video_id") == Int(videoId)
  {
    if t == [] then []
    else (if Field(t[0].fields, "video_id") == Int(videoId) then [t[0]] else []) + Attached(t[1..], videoId)
  }
}

=== FILE: wrappers.dfy ===
/** Optional values and the exceptions the Python services raise, as values. */
module Wrappers {

  /** A Python value that may be `None`. */
  datatype Option<+T> = None | Some(value: T)

  /** The exceptions the modelled code raises or lets escape. */
  datatype Failure =
    | TypeError(message: string)
    | ValueError(message: string)
    | RuntimeError(message: string)
    | AttributeError
    | AssertionError
    | ZeroDivisionError
    | HttpError(code: int, detail: string)

  /** Either a returned value or a raised exception. */
  datatype Result<+T> = Ok(value: T) | Err(failure: Failure)
}
